=== FILE: README.md ===
# Task tracker core, modelled in Dafny

This project models the pure decision logic of a small task-tracking web application. The application has an Express backend in front of a hosted auth/Postgres service, and a React frontend with a drag-and-drop kanban board. The model consists of immutable datatypes and pure functions. Every call into the hosted service (token verification, table queries, user updates, admin deletion) is an oracle answer passed in as a parameter. The `tasks` table is an abstract sequence of rows.

Modules follow the source files:

- `KanbanBoard`: the board as a map from column id to a sequence of tasks. `OnDragEnd` moves one task, within a column or across columns.
- `TaskCard`: the client-side task record, plus `getStatusColor`, `isOverdue` and `formatDate`. Timestamps are integers and `now` is a parameter.
- `TaskController`: validation and row construction for create, list, partial update and delete, applied to the abstract table.
- `ProfileController`: the profile view, the email-shape check, update validation, and the account-deletion outcome.
- `AccessGate`: parsing of the `Authorization` header and the mapping from verifier outcome to reply.
- `BackendConfig` and `FrontendConfig`: the placeholder-credential predicates, the configured flag and the fallback values.
- `AddTaskModal` and `ProfilePage`: form and payload builders, error-message classifiers, and the close and delete handlers.
- Shared helpers:
  - `JsValues`: absent / null / value, and truthiness.
  - `JsStrings`: the ECMAScript whitespace set, `trim`, `startsWith` and `includes`.
  - `SeqEdit`: `splice`, `filter` and first-index.
  - `Http`, `HttpClient` and `Identity`: reply envelopes, client error shape, and the user record.

## Model

| member | source | states |
|---|---|---|
| KanbanBoard.OnDragEnd | frontend/src/components/KanbanBoard.jsx:80-135 | a drop with no destination, or back onto its own place, leaves the board unchanged; the column keys are kept; columns other than source and destination are untouched |
| KanbanBoard.StatusForColumn | frontend/src/components/KanbanBoard.jsx:122-123 | each of the three column ids maps to itself, and every id other than `pending`/`in-progress` maps to `completed` |
| KanbanBoard.SameColumnMove | frontend/src/components/KanbanBoard.jsx:102-110 | a reorder permutes the column (same multiset) and puts the dragged task at the destination index; removing it again gives the column minus the source task, so the others keep their order; other columns are unchanged |
| KanbanBoard.CrossColumnMove | frontend/src/components/KanbanBoard.jsx:112-133 | the source column becomes the old one without the dragged task, and removing the inserted task from the destination gives back the old destination, so every other task keeps its contents and order. The moved task has the destination's status with every other field kept. The ids of the two columns are preserved as a multiset, and no other column changes |
| KanbanBoard.CardsFollowColumns | frontend/src/components/TaskCard.jsx:14-30 | on a board where every task sits in its status column, each card shows its column's colour (yellow, blue, green), and no card in the completed column is ever overdue |
| KanbanBoard.MovePreservesIds | frontend/src/components/KanbanBoard.jsx:96-134 | on a three-column board any drop keeps three columns and the multiset of task ids across the board |
| KanbanBoard.MovePreservesStatusInvariant | frontend/src/components/KanbanBoard.jsx:119-133 | if every task sits in the column its status names, it still does after any drop (for boards with only the three known column ids) |
| KanbanBoard.UnknownColumnBreaksInvariant | frontend/src/components/KanbanBoard.jsx:122-123 | a drop into a column id other than the three labels the task `completed`, which breaks the invariant there |
| KanbanBoard.InitialBoardConsistent | frontend/src/components/KanbanBoard.jsx:6-69 | the mock board has exactly the three columns and every task's status equals its column |
| TaskCard.StatusColor | frontend/src/components/TaskCard.jsx:14-25 | yellow, blue and green classes exactly for the three statuses, gray exactly for everything else (so the four are distinct) |
| TaskCard.IsOverdue | frontend/src/components/TaskCard.jsx:27-30 | false with no due date, false for completed tasks, and true exactly when due < now and status is not `completed` |
| TaskCard.OverdueStaysOverdue | frontend/src/components/TaskCard.jsx:27-30 | a task overdue at some time is still overdue at every later time |
| TaskCard.FormatDate | frontend/src/components/TaskCard.jsx:4-12 | a missing date reads "No due date"; a present date is whatever the locale formatter gives |
| JsStrings.Trim | backend/src/controllers/taskController.js:32 | the result is the input with a whitespace prefix and a whitespace suffix cut off. It is empty exactly when the input is all whitespace, it never starts or ends with whitespace, and a string without surrounding whitespace is left as is |
| JsStrings.TrimExample | backend/src/controllers/taskController.js:51 | the contract of `Trim` pins concrete results: `" a "` trims to `"a"` |
| JsStrings.ContainsIffOccurs | backend/src/config/supabaseClient.js:11-15 | `includes` holds exactly when the pattern occurs in the string at some offset |
| TaskController.CreateTask | backend/src/controllers/taskController.js:26-84 | checks run in this order. A missing or blank title gives 400 "Title is required". A truthy status outside the enum gives 400. A request passing both checks whose insert reports an error gives 500 "Database Error" / "Failed to create task" with the database's message as `details`. Success means exactly one row was inserted. That row has the caller's id, the trimmed non-empty title, the trimmed description or null, and a valid status that defaults to `pending`. `due_date` is null when falsy. On every failure the table is unchanged |
| TaskController.CreateKeepsIdsUnique | backend/src/controllers/taskController.js:49-62 | inserting with a fresh identifier keeps identifiers unique |
| TaskController.SortNewestFirst | backend/src/controllers/taskController.js:101 | the result is a permutation of its input ordered by `created_at` descending |
| TaskController.GetTasks | backend/src/controllers/taskController.js:91-130 | a truthy invalid filter gives 400. Otherwise a query error gives 500 "Database Error" / "Failed to fetch tasks" with the database's message as `details`. On success every row is the caller's and has the filter status. Every such row of the table is included, as a multiset. Rows are newest first, and `count` equals the number of rows. An empty filter means no filter |
| TaskController.UpdateData | backend/src/controllers/taskController.js:159-164 | the update object holds exactly the members present in the body: a trimmed title; the trimmed description, or null when it is falsy; the status as given; and the due date, or null when it is falsy. A null title has no update object, because `trim` throws |
| TaskController.ApplyPatch | backend/src/controllers/taskController.js:183-189 | id, owner and timestamps are kept. A present title replaces the old one. A description, status or due date given as a value is written as that value, and given as null is written as null. Absent members keep their values, so an empty update object changes nothing |
| TaskController.PatchedFields | backend/src/controllers/taskController.js:159-164 | in terms of the request body: a present title becomes its trimmed text. A truthy description becomes its trimmed text, and an empty or null one becomes null. A status is written as given, null included. A present due date becomes its value, or null when falsy. Absent members and the creation time are kept |
| TaskController.UpdateTask | backend/src/controllers/taskController.js:144-210 | checks run in this order: the status enum; then a null title (500); then an empty body (400, before the title check); then a blank title (400). A body passing them gets 500 with the database message on a database error. Otherwise it gets 404 when no row matches both id and caller. Success happens exactly when the checks pass, the database answers and such a row exists. Failures leave the table unchanged. Success changes only the matching rows, each becoming the row patched with the body's update object: trimmed title, trimmed description or null, status as given (null included), due date or null. Absent members are kept |
| TaskController.UpdateAcceptsEmptyStatus | backend/src/controllers/taskController.js:150-163 | an empty-string status passes the enum check and is written into the row |
| TaskController.UpdateKeepsIdsUnique | backend/src/controllers/taskController.js:183-187 | an update keeps identifiers unique |
| TaskController.DeleteTask | backend/src/controllers/taskController.js:224-257 | success happens exactly when the database answers and some row matches both id and caller. The reply carries that row's prior state. The table becomes the old one without the matching rows, every other row kept in order. A database error gives 500 "Database Error" / "Failed to delete task" with its message as `details`. No match gives 404 with the table unchanged |
| TaskController.DeleteRemovesOneRow | backend/src/controllers/taskController.js:230-236 | with unique identifiers a successful delete removes exactly one row |
| TaskController.OtherUsersTasksUntouchable | backend/src/controllers/taskController.js:183-252 | when the caller owns no row with that id, update and delete both fail (400/404/500, never success) and leave the table unchanged |
| ProfileController.View | backend/src/controllers/profileController.js:43-50 | id, email, timestamps are copied; metadata is copied or `{}` when absent |
| ProfileController.GetProfile | backend/src/controllers/profileController.js:26-59 | lookup error or no user gives 401 "User not found"; a thrown lookup gives 500; otherwise 200 with the user's view |
| ProfileController.EmailShapeIsPattern | backend/src/controllers/profileController.js:90 | the shape "no whitespace, exactly one `@`, non-empty local part, a `.` in the domain that is neither its first nor last character" is exactly the regex `^[^\s@]+@[^\s@]+\.[^\s@]+$` |
| ProfileController.ValidateProfileUpdate | backend/src/controllers/profileController.js:70-95 | neither field present gives 400. A truthy email that does not match the pattern gives 400. An empty or null email skips the format check. The update object has `email` exactly when it was given and `data` exactly when metadata was given, both unchanged |
| ProfileController.UpdateProfile | backend/src/controllers/profileController.js:65-127 | a validation failure is returned unchanged as 400. Success happens exactly when validation passes and the identity provider accepts the update object built from the body's email and metadata. Success returns the view of the user the provider returned. A valid body the provider refuses gives 500 "Database Error" / "Failed to update profile" with the provider's message as `details` |
| ProfileController.DeleteAccount | backend/src/controllers/profileController.js:134-183 | the status is always 200. `accountDeleted` is true exactly when a service key is set and the admin deletion succeeded. A note is present exactly when no key is set. After a successful task deletion the caller has no rows left and every other row is kept |
| ProfileController.TaskDeletionFailureNotFatal | backend/src/controllers/profileController.js:139-148 | a failure while deleting the tasks does not change the reply |
| ProfileController.NoTasksAfterDeletion | backend/src/controllers/profileController.js:139-143 | after the tasks are deleted, listing the caller's tasks yields a count of 0 |
| AccessGate.ParseAuthorization | backend/src/middleware/authMiddleware.js:10-27 | a missing header, or one that does not start with the exact case-sensitive `Bearer `, is invalid. The header exactly `Bearer ` means the token is missing. Otherwise the token is the rest of the header and is non-empty |
| AccessGate.BearerRoundTrip | backend/src/middleware/authMiddleware.js:12-20 | the header `Bearer <t>` that the frontend interceptor builds parses back to `t`, for every non-empty `t` |
| AccessGate.Authenticate | backend/src/middleware/authMiddleware.js:7-48 | header failures give 401. A verifier error or missing user gives 401. A thrown verifier gives 500, and the unconfigured stub always throws. Only success passes on, once, with the resolved user and the token taken from the header. It differs from the as-written version only by carrying the token |
| AccessGate.AuthenticateAsWritten | backend/src/middleware/authMiddleware.js:37-41 | the context passed on never carries the token |
| AccessGate.AsWrittenForwardsUndefined | backend/src/controllers/taskController.js:7-17 | as written, every authenticated request builds its database client with the header `Bearer undefined` |
| AccessGate.ForwardedHeaderRoundTrip | backend/src/controllers/taskController.js:7-17 | with the token attached, the handlers forward exactly the header the request arrived with |
| AccessGate.TokenDroppedExample | backend/src/middleware/authMiddleware.js:40 | for the header `Bearer abc`, the as-written context forwards `Bearer undefined` and the corrected one forwards `Bearer abc` |
| BackendConfig.IsPlaceholderByMarkers | backend/src/config/supabaseClient.js:9-16 | the predicate holds exactly for a missing or empty value or one containing `your-project`, `your_supabase` or `placeholder`; the exact comparisons are redundant |
| BackendConfig.HasValidCredentials | backend/src/config/supabaseClient.js:18-20 | truthy exactly when both values are set and neither is a placeholder; when falsy the JavaScript value is `undefined`, `""` or `false` |
| BackendConfig.MakeClient | backend/src/config/supabaseClient.js:31-50 | `isConfigured` is the credentials flag, and the stub client is chosen exactly when it is falsy |
| BackendConfig.GetUser | backend/src/config/supabaseClient.js:36-42 | the stub always throws the not-configured error; the real client answers what the provider answers |
| BackendConfig.UnconfiguredAlwaysThrows | backend/src/config/supabaseClient.js:36-42 | with a placeholder URL or key, token verification always throws |
| FrontendConfig.IsPlaceholderByMarkers | frontend/src/config/supabaseClient.js:7-13 | the predicate holds exactly for a missing or empty value or one containing `your-project` or `your_supabase`; the exact comparisons are redundant |
| FrontendConfig.WarningIffPlaceholder | frontend/src/config/supabaseClient.js:16 | the warning fires exactly when either value is missing or a placeholder |
| FrontendConfig.ClientSettings | frontend/src/config/supabaseClient.js:27-30 | unset values fall back to `https://placeholder.supabase.co` and `placeholder-key`; set values are used as they are |
| FrontendConfig.FallbacksPassFrontendTest | frontend/src/config/supabaseClient.js:7-13 | the fallback values, which contain only the word `placeholder`, are not flagged by the frontend predicate |
| FrontendConfig.FallbacksFailBackendTest | backend/src/config/supabaseClient.js:15 | the same values are flagged by the backend predicate |
| AddTaskModal.BuildPayload | frontend/src/components/AddTaskModal.jsx:33-47 | the title is trimmed. The description is trimmed, or null when it trims to empty. The status is passed through. The due date is null when the field is empty and the converted date otherwise. No payload is built when the conversion throws |
| AddTaskModal.Kind | frontend/src/components/AddTaskModal.jsx:63-75 | error kinds are tested in this order: connection code or message, then 401, then 400, then 500, then a server message, then generic. No response and no connection marker gives generic |
| AddTaskModal.ErrorMessage | frontend/src/components/AddTaskModal.jsx:63-75 | each kind has its line. Connection, 401, 500 and generic show their fixed texts. A 400 shows the server message or the default. A server-message error shows that message. The line is never empty |
| AddTaskModal.Submit | frontend/src/components/AddTaskModal.jsx:21-79 | a blank title sets "Title is required" and does not call `onAddTask`. Otherwise `onAddTask` gets the built payload, and `onClose` is called exactly when it resolves. On success the form resets to the empty form. A failure keeps the form and shows an error: for an invalid date, the line for the thrown date error; for a rejected add, the line `ErrorMessage` gives for that error. Loading ends false |
| AddTaskModal.RequestBody | frontend/src/components/AddTaskModal.jsx:42-47 | the request body carries every payload member; a null description or due date arrives as null, a value as that value |
| AddTaskModal.SentPayloadNormalized | frontend/src/components/AddTaskModal.jsx:42-47 | every payload the dialog sends has a non-empty title and a null or non-empty description, both already trimmed, and the chosen status |
| AddTaskModal.NormalizedPayloadIsCreated | backend/src/controllers/taskController.js:32-55 | such a payload passes the create endpoint's title check, and with a valid status it is stored with the title, description and status sent (a null due date stays null) |
| AddTaskModal.SentPayloadIsCreated | frontend/src/components/AddTaskModal.jsx:21-49 | end to end: whatever the dialog sends passes the server's title check, and with one of the three offered statuses it is created with exactly the title, description and status sent |
| AddTaskModal.CreateRejectionShown | frontend/src/components/AddTaskModal.jsx:62-75 | when the thrown error carries a failure reply of the create endpoint, a 400 is shown with the server's own message ("Title is required", the status message) and a 500 with the fixed server-error line |
| AddTaskModal.InvalidDateIsGeneric | frontend/src/components/AddTaskModal.jsx:35-38 | the error an invalid date throws is classified as generic, so the dialog shows the generic line |
| AddTaskModal.Close | frontend/src/components/AddTaskModal.jsx:81-92 | nothing happens while loading (no reset, no `onClose`); otherwise the form and error are reset and `onClose` is called |
| ProfilePage.FormFromProfile | frontend/src/pages/Profile.jsx:33-37 | email, full name and avatar URL default to `''` when missing or null; present strings are copied |
| ProfilePage.FormShowsFetchedUser | frontend/src/pages/Profile.jsx:33-37 | fetching the profile of the resolved user succeeds, and the form shows that user's email and the `full_name` and `avatar_url` strings, with empty fields where they are missing |
| ProfilePage.FetchProfile | frontend/src/pages/Profile.jsx:26-48 | success fills profile and form. A 401 navigates to login and sets no error. Any other failure sets the load error |
| ProfilePage.BuildMetadata | frontend/src/pages/Profile.jsx:66-69 | both keys are always sent; an empty string becomes null and a non-empty one is sent unchanged |
| ProfilePage.UpdateRequest | frontend/src/pages/Profile.jsx:71-74 | the email is always sent, together with the built metadata |
| ProfilePage.UpdateRequestValidation | frontend/src/pages/Profile.jsx:71-74 | the page's request never trips the backend's "no fields" check; it is accepted exactly when the email is empty or matches the email pattern |
| ProfilePage.UneditedFormRoundTrip | frontend/src/pages/Profile.jsx:33-69 | saving an unedited form sends back each shown metadata string; a missing, null or empty entry is sent as null |
| ProfilePage.UpdateErrorKind | frontend/src/pages/Profile.jsx:85-100 | a connection code or message, or no response at all, is a connection error and comes ahead of every status check; the 401, 400 and 500 statuses are classified in that order. Any other response is classified by its body: a truthy `message` first, so it wins over `details`, then truthy `details`, and the generic kind exactly when it has neither |
| ProfilePage.UpdateErrorMessage | frontend/src/pages/Profile.jsx:84-100 | no response gives the connection message naming the API URL the HTTP client was created with (the intended `getApiBaseURL`). A 500 shows `details`, else `message`, else the default. A 400 shows the server message or the default. 401, a server message, server details and the generic case each show their line. The line is never empty |
| ProfilePage.UpdateErrorLineAsWritten | frontend/src/pages/Profile.jsx:84-87 | as written, the line stays empty exactly when the error is a connection failure, because calling the missing `getApiBaseURL` throws before `setError` |
| ProfilePage.AsWrittenDiffersOnlyOffline | frontend/src/pages/Profile.jsx:84-100 | the handler as written shows the intended line for every error with a response, and a blank line where the intended one reports the unreachable backend |
| ProfilePage.RefusedConnectionShowsNothing | frontend/src/pages/Profile.jsx:84-87 | a refused connection leaves the line blank as written, while the intended handler names `http://localhost:3000/api` |
| ProfilePage.UpdateRejectionShown | frontend/src/pages/Profile.jsx:84-100 | when the thrown error carries a failure reply of the profile update endpoint, a 400 is shown with the server's message and a 500 with its details, or its message when there are none |
| ProfilePage.DeleteAccountOutcome | frontend/src/pages/Profile.jsx:106-135 | the success message is chosen by `accountDeleted` alone, and `deleting` stays set with a redirect pending. A failure shows the server message or the default, resets `deleting`, and leaves the success line the page already showed as it was |
| ProfilePage.DeletionMessageFollowsBackend | frontend/src/pages/Profile.jsx:118-122 | with the profile routes mounted, the page says the account itself was deleted exactly when the backend had a service key and the admin deletion succeeded |
| ProfilePage.UnmountedProfileRoutes | backend/src/server.js:28-32 | with only the task routes mounted, any profile request fails with a 404 that has no JSON body; the page then shows the load error, the generic update line and the generic deletion failure, and keeps the success line it showed |
| ProfilePage.UnroutedIsNotConnectionFailure | frontend/src/pages/Profile.jsx:85 | the error the HTTP client throws for that 404 is not mistaken for a connection failure |

## Findings

| source | as written | input that shows it | evidently intended | confidence | as-written member | corrected member |
|---|---|---|---|---|---|---|
| backend/src/middleware/authMiddleware.js:40 | the middleware sets only `req.user`, but every handler builds its database client from `req.token` (taskController.js:29, profileController.js:28), which is never set, so the forwarded header is `Bearer undefined` | header `Bearer abc` with a verifier accepting `abc` | attach the verified token (`req.token = token`) so that the database sees the caller's credential | high that the header is `Bearer undefined`; what the hosted service then answers is not visible; not executed | AccessGate.AuthenticateAsWritten | AccessGate.Authenticate |
| frontend/src/pages/Profile.jsx:4 | the page imports `getApiBaseURL` from the API module, which has only a default export (frontend/src/services/api.js:68). Under native ES modules or a strict bundler the page fails to load. Where the binding is `undefined`, the call at Profile.jsx:86 throws inside the `catch`, so a failed connection leaves no error line | a profile update while the backend is down (`ECONNREFUSED`, no response) | export `getApiBaseURL` returning the client's base URL (`VITE_API_URL` or `http://localhost:3000/api`) so that the line names it | high that the export is missing; which of the two failures occurs depends on the build; not executed | ProfilePage.UpdateErrorLineAsWritten | ProfilePage.UpdateErrorMessage |
| backend/src/server.js:28-32 | only the four `/api/tasks` routes are registered, and the profile handlers are never mounted, so GET, PUT and DELETE on `/api/profile` get Express's default 404 | opening the profile page: `GET /api/profile` | mount the three profile handlers on `/api/profile` behind `authMiddleware` | high; not executed | ProfilePage.UnmountedProfileRoutes | ProfilePage.DeletionMessageFollowsBackend |

## Left out

- Hosted-service SDK calls are not modelled as code. This covers `createClient`, `auth.getUser`, `updateUser`, `admin.deleteUser` and the query builders. Their answers are oracle parameters (`DbOutcome`, `Verdict`, `UpdateAnswer`), and the table is an abstract sequence of rows.
- Zero rows under `.single()`: the SDK may report this as an error, which would give 500 rather than 404. The model follows the handlers' own branches and gives 404 when no row matches and the call reports no error.
- TaskController.UpdateTask and TaskController.DeleteTask: several matching rows. `id` is the table's key, so at most one row matches. On a table with repeated ids the model updates or deletes every match and answers with the first, where `.single()` would report an error. The uniqueness lemmas (TaskController.UpdateKeepsIdsUnique, TaskController.DeleteRemovesOneRow) state the keyed case.
- TaskController.UpdateTask does not refresh `updated_at`. The handler never sets it, and no database trigger is visible.
- Ties in `created_at`: Postgres may return tied rows in any order. TaskController.SortNewestFirst keeps table order for ties.
- KanbanBoard.OnDragEnd requires a drop the drag-and-drop library can report: registered column ids and in-range indices. For other inputs the handler would insert `undefined` or throw, and that behaviour is not modelled.
- Optimistic move with rollback, metadata merge with removal of null keys, a "no changes detected" check, administrative-versus-user credential fallback, and a 503 for an unconfigured provider: none of these appear in the code. The model follows the code. No move is persisted: the board makes no network call for any drop.
- Caught exceptions in the backend handlers (the generic 500 replies) are left out, except three. These are the `TypeError` from `title.trim()` on a null title in an update, a thrown token verifier in the middleware, and a thrown user lookup in the profile fetch (ProfileController.GetProfile). On the frontend, the `RangeError` an invalid due date throws in the add-task dialog is modelled.
- Request-body members are modelled only as strings, `null` or absent. Metadata values are modelled only as strings or `null`. Numbers, arrays and nested objects are left out.
- Date parsing, `toISOString` and locale formatting depend on the clock and locale. Due dates on the client are integer timestamps, conversion is a parameter that may fail, and `now` is a parameter.
- Environment variables (dotenv, `process.env`, `import.meta.env`) are parameters. Console logging is not modelled.
- `isConfigured` being read-only is not stated as a contract. It holds because it is a field of an immutable datatype.
- Express wiring and `app.listen` (backend/src/server.js) are routing only. The profile routes are not registered there; see "## Findings".
- The axios interceptors (session lookup, 401 sign-out and redirect) are left out. Only the `Bearer <token>` header format is used, in AccessGate.BearerRoundTrip.
- The Dashboard page only fetches and renders, so it is left out.
- ProfilePage.UpdateErrorMessage: `apiUrl` is a parameter standing for the value `getApiBaseURL` is meant to return; the API module does not export it, and the model of the code as written is ProfilePage.UpdateErrorLineAsWritten. A build that refuses the missing export, so that the page never loads, is not modelled.
- ProfilePage.FormShowsFetchedUser, ProfilePage.UpdateRequestValidation, ProfilePage.UpdateRejectionShown and ProfilePage.DeletionMessageFollowsBackend assume GET, PUT and DELETE on `/api/profile` are mounted behind `authMiddleware` and reach the profile handlers. backend/src/server.js:28-32 does not mount them; ProfilePage.UnmountedProfileRoutes states what the page shows as written.
- AddTaskModal.RequestBody: no source file renders the dialog or defines `onAddTask`. The model assumes `onAddTask` POSTs the payload unchanged as JSON to `/api/tasks`. AddTaskModal.SentPayloadIsCreated and AddTaskModal.NormalizedPayloadIsCreated rest on that assumption.
- AddTaskModal.CreateRejectionShown and ProfilePage.UpdateRejectionShown assume the HTTP client turns a failure reply into an error whose `response` holds that status and the reply's `message` and `details`, and whose code and message are not the connection markers. The HTTP client library is not part of this model.
- React state setters, `handleChange`, timers that clear messages or delay navigation, the `saving` flag, `signOut` after account deletion, and JSX rendering are UI and event-loop behaviour, so they are left out.

=== FILE: add_task_modal.dfy ===
/** The "add task" dialog: its form, the submit handler (title check,
    payload construction, error classification) and the close handler.
    Date formatting (`new Date(..).toISOString()`) is a parameter that may
    fail, as it throws on an invalid date. */
module AddTaskModal {
  import opened JsValues
  import opened JsStrings
  import opened HttpClient
  import Http
  import TaskController

  datatype Form = Form(title: string, description: string, status: string, dueDate: string)

  const EmptyForm: Form := Form("", "", "pending", "")

  /** The dialog's state: the form, the loading flag and the error line. */
  datatype Modal = Modal(form: Form, loading: bool, error: string)

  /** The task data handed to `onAddTask`. */
  datatype Payload = Payload(title: string, description: Option<string>, status: string, dueDate: Option<string>)

  /** `formData.title.trim()` is falsy. */
  predicate BlankTitle(f: Form) {
    Trim(f.title) == ""
  }

  /** The payload: trimmed title, trimmed description or null when it trims
      to nothing, status as chosen, and the due date converted, or null when
      none was entered. `None` when the date conversion throws. */
  function BuildPayload(f: Form, toIso: string -> Option<string>): (p: Option<Payload>)
    ensures f.dueDate == "" ==> p.Some? && p.value.dueDate.None?
    ensures f.dueDate != "" ==> (p.Some? <==> toIso(f.dueDate).Some?)
    ensures p.Some? ==>
      && p.value.title == Trim(f.title)
      && (Trim(f.description) == "" ==> p.value.description.None?)
      && (Trim(f.description) != "" ==> p.value.description == Some(Trim(f.description)))
      && p.value.status == f.status
      && (f.dueDate != "" ==> p.value.dueDate == toIso(f.dueDate))
  {
    var due := if f.dueDate == "" then Some(None) else
      match toIso(f.dueDate)
      case None => None
      case Some(iso) => Some(Some(iso));
    match due
    case None => None
    case Some(d) =>
      Some(Payload(Trim(f.title), if Trim(f.description) == "" then None else Some(Trim(f.description)), f.status, d))
  }

  /** The kinds of failure message, in the order they are tested. */
  datatype ErrorKind = Connection | AuthFailure | BadRequest | ServerFailure | ServerSaid | Generic

  function Kind(e: ClientError): (k: ErrorKind)
    ensures k == Connection <==> RefusedOrNetwork(e)
    ensures k == AuthFailure <==> !RefusedOrNetwork(e) && HasStatus(e, 401)
    ensures k == BadRequest <==> !RefusedOrNetwork(e) && HasStatus(e, 400)
    ensures k == ServerFailure <==> !RefusedOrNetwork(e) && HasStatus(e, 500)
    ensures k == ServerSaid <==>
      !RefusedOrNetwork(e) && !HasStatus(e, 401) && !HasStatus(e, 400) && !HasStatus(e, 500) && Truthy(ServerMessage(e))
    ensures e.response.None? && !RefusedOrNetwork(e) ==> k == Generic
  {
    if RefusedOrNetwork(e) then Connection
    else if HasStatus(e, 401) then AuthFailure
    else if HasStatus(e, 400) then BadRequest
    else if HasStatus(e, 500) then ServerFailure
    else if Truthy(ServerMessage(e)) then ServerSaid
    else Generic
  }

  const ConnectionLine: string := "Cannot connect to backend server. Please ensure the backend is running on port 3000."
  const AuthLine: string := "Authentication failed. Please log in again."
  const BadTaskLine: string := "Invalid task data. Please check your input."
  const ServerErrorLine: string := "Server error. Please try again later."
  const GenericLine: string := "Failed to create task. Please check your connection and try again."

  /** The error line shown for a failed submit. */
  function ErrorMessage(e: ClientError): (msg: string)
    ensures msg != ""
    ensures Kind(e) == Connection ==> msg == ConnectionLine
    ensures Kind(e) == AuthFailure ==> msg == AuthLine
    ensures Kind(e) == BadRequest ==> msg == OrElse(ServerMessage(e), BadTaskLine)
    ensures Kind(e) == ServerFailure ==> msg == ServerErrorLine
    ensures Kind(e) == ServerSaid ==> msg == ServerMessage(e).value
    ensures Kind(e) == Generic ==> msg == GenericLine
  {
    match Kind(e)
    case Connection => ConnectionLine
    case AuthFailure => AuthLine
    case BadRequest => OrElse(ServerMessage(e), BadTaskLine)
    case ServerFailure => ServerErrorLine
    case ServerSaid => ServerMessage(e).value
    case Generic => GenericLine
  }

  /** What `onAddTask` does with the payload: it resolves, or throws. */
  datatype AddOutcome = Added | AddFailed(error: ClientError)

  /** The error `toISOString` throws on an invalid date (a RangeError). */
  const InvalidDate: ClientError := ClientError(None, Some("Invalid time value"), None)

  /** The dialog after a submit, the payload handed to `onAddTask` (if it
      was called) and whether `onClose` was called. */
  datatype Submitted = Submitted(modal: Modal, sent: Option<Payload>, closed: bool)

  /** `handleSubmit`. */
  function Submit(m: Modal, toIso: string -> Option<string>, onAddTask: Payload -> AddOutcome): (r: Submitted)
    ensures BlankTitle(m.form) ==> r == Submitted(m.(error := "Title is required"), None, false)
    ensures !BlankTitle(m.form) ==> !r.modal.loading
    ensures r.sent.Some? <==> !BlankTitle(m.form) && BuildPayload(m.form, toIso).Some?
    ensures r.sent.Some? ==> r.sent == BuildPayload(m.form, toIso)
    ensures r.closed <==> r.sent.Some? && onAddTask(r.sent.value).Added?
    ensures r.closed ==> r.modal == Modal(EmptyForm, false, "")
    ensures !BlankTitle(m.form) && !r.closed ==> r.modal.form == m.form && r.modal.error != ""
    ensures !BlankTitle(m.form) && BuildPayload(m.form, toIso).None? ==> r.modal.error == ErrorMessage(InvalidDate)
    ensures r.sent.Some? && onAddTask(r.sent.value).AddFailed? ==> r.modal.error == ErrorMessage(onAddTask(r.sent.value).error)
  {
    if BlankTitle(m.form) then Submitted(m.(error := "Title is required"), None, false)
    else
      match BuildPayload(m.form, toIso)
      case None => Submitted(Modal(m.form, false, ErrorMessage(InvalidDate)), None, false)
      case Some(p) =>
        match onAddTask(p)
        case Added => Submitted(Modal(EmptyForm, false, ""), Some(p), true)
        case AddFailed(e) => Submitted(Modal(m.form, false, ErrorMessage(e)), Some(p), false)
  }

  /** An invalid date never reaches `onAddTask`; its error is reported with
      the generic message. */
  lemma InvalidDateIsGeneric()
    ensures Kind(InvalidDate) == Generic
    ensures ErrorMessage(InvalidDate) == GenericLine
  {
    MissingCharExcludes("Invalid time value", "Network Error", 'N');
  }

  /** The JSON body the task service receives for a payload: every member
      is present, and a `null` member arrives as null. */
  function RequestBody(p: Payload): (body: TaskController.TaskBody)
    ensures body.title == Defined(p.title) && body.status == Defined(p.status)
    ensures p.description.None? <==> body.description.Null?
    ensures p.description.Some? ==> body.description == Defined(p.description.value)
    ensures p.dueDate.None? <==> body.dueDate.Null?
    ensures p.dueDate.Some? ==> body.dueDate == Defined(p.dueDate.value)
  {
    TaskController.TaskBody(
      Defined(p.title),
      match p.description case None => Null case Some(d) => Defined(d),
      Defined(p.status),
      match p.dueDate case None => Null case Some(d) => Defined(d))
  }

  /** A payload whose strings are already trimmed: a non-empty title and a
      description that is either null or non-empty. */
  predicate Normalized(p: Payload) {
    && p.title != "" && Trim(p.title) == p.title
    && (p.description.Some? ==> p.description.value != "" && Trim(p.description.value) == p.description.value)
  }

  /** Every payload the dialog sends is normalized. */
  lemma SentPayloadNormalized(m: Modal, toIso: string -> Option<string>, onAddTask: Payload -> AddOutcome)
    requires !BlankTitle(m.form) && BuildPayload(m.form, toIso).Some?
    ensures Normalized(Submit(m, toIso, onAddTask).sent.value)
    ensures Submit(m, toIso, onAddTask).sent.value.status == m.form.status
  {
    TrimIdempotent(m.form.title);
    TrimIdempotent(m.form.description);
  }

  /** The create endpoint stores a normalized payload with a valid status
      as it was sent: trimming it again on the server changes nothing. */
  lemma NormalizedPayloadIsCreated(p: Payload, table: TaskController.Table, caller: string, freshId: string, now: int)
    requires Normalized(p)
    ensures !TaskController.MissingTitle(RequestBody(p).title)
    ensures TaskController.IsValidStatus(p.status) ==>
      var r := TaskController.CreateTask(table, caller, RequestBody(p), freshId, now, Http.DbOk);
      && r.reply.Success?
      && r.reply.value.title == p.title
      && r.reply.value.description == p.description
      && r.reply.value.status == Some(p.status)
      && (p.dueDate.None? ==> r.reply.value.dueDate.None?)
  {
    var body := RequestBody(p);
    assert !TaskController.MissingTitle(body.title) by {
      assert body.title == Defined(p.title) && Trim(p.title) == p.title;
    }
    if TaskController.IsValidStatus(p.status) {
      assert !TaskController.RejectedStatus(body.status) by {
        assert body.status == Defined(p.status);
      }
      assert (if FieldTruthy(body.description) then Some(Trim(body.description.value)) else None) == p.description by {
        if p.description.Some? {
          assert body.description == Defined(p.description.value);
        }
      }
      var r := TaskController.CreateTask(table, caller, body, freshId, now, Http.DbOk);
      assert r.reply.Success?;
    }
  }

  /** Every 400 reply of the create endpoint is shown with the server's own
      message, and every 500 reply with the fixed server-error line, as long
      as the thrown error carries that reply. */
  lemma CreateRejectionShown(table: TaskController.Table, caller: string, body: TaskController.TaskBody,
                             freshId: string, now: int, db: Http.DbOutcome, e: ClientError)
    requires TaskController.CreateTask(table, caller, body, freshId, now, db).reply.Failure?
    requires var reply := TaskController.CreateTask(table, caller, body, freshId, now, db).reply;
      Carries(e, reply.status, reply.body) && !RefusedOrNetwork(e)
    ensures var reply := TaskController.CreateTask(table, caller, body, freshId, now, db).reply;
      && (reply.status == 400 ==> ErrorMessage(e) == reply.body.message)
      && (reply.status == 500 ==> ErrorMessage(e) == ServerErrorLine)
  {
    var reply := TaskController.CreateTask(table, caller, body, freshId, now, db).reply;
    assert reply.body.message != "";
  }

  /** End to end: every payload the dialog sends passes the create
      endpoint's title check, and with one of the three statuses the dialog
      offers it is stored with the title, description and status sent. */
  lemma SentPayloadIsCreated(m: Modal, toIso: string -> Option<string>, onAddTask: Payload -> AddOutcome,
                             table: TaskController.Table, caller: string, freshId: string, now: int)
    requires !BlankTitle(m.form) && BuildPayload(m.form, toIso).Some?
    ensures var p := Submit(m, toIso, onAddTask).sent.value;
      && !TaskController.MissingTitle(RequestBody(p).title)
      && (TaskController.IsValidStatus(m.form.status) ==>
            var r := TaskController.CreateTask(table, caller, RequestBody(p), freshId, now, Http.DbOk);
            && r.reply.Success?
            && r.reply.value.title == p.title
            && r.reply.value.description == p.description
            && r.reply.value.status == Some(p.status))
  {
    SentPayloadNormalized(m, toIso, onAddTask);
    NormalizedPayloadIsCreated(Submit(m, toIso, onAddTask).sent.value, table, caller, freshId, now);
  }

  /** The dialog after a close request and whether `onClose` was called. */
  datatype Closing = Closing(modal: Modal, closed: bool)

  /** `handleClose`: nothing happens while loading; otherwise the form and
      the error are reset and `onClose` is called. */
  function Close(m: Modal): (r: Closing)
    ensures m.loading ==> r == Closing(m, false)
    ensures !m.loading ==> r.closed && r.modal.form == EmptyForm && r.modal.error == "" && !r.modal.loading
  {
    if m.loading then Closing(m, false) else Closing(Modal(EmptyForm, false, ""), true)
  }
}

=== FILE: auth_middleware.dfy ===
/** The authentication middleware: parse the `Authorization` header,
    verify the bearer token through the configured client, and either
    reject the request or pass it on with the resolved user attached.
    The header the frontend sends (`Bearer <access token>`) is built by
    `BearerHeader`. */
module AccessGate {
  import opened JsValues
  import opened JsStrings
  import opened Identity
  import opened Http
  import opened BackendConfig

  const BearerPrefix: string := "Bearer "

  /** The header value the frontend's request interceptor attaches. */
  function BearerHeader(token: string): string {
    BearerPrefix + token
  }

  datatype Parsed = Token(token: string) | MissingOrInvalid | TokenMissing

  /** Header parsing: a missing header or one not starting with the exact,
      case-sensitive `Bearer ` is invalid; `substring(7)` is the token, and
      an empty token is rejected on its own. */
  function ParseAuthorization(header: Option<string>): (p: Parsed)
    ensures p == MissingOrInvalid <==> !Truthy(header) || !StartsWith(header.value, BearerPrefix)
    ensures p == TokenMissing <==> header == Some(BearerPrefix)
    ensures p.Token? ==> p.token != "" && header == Some(BearerHeader(p.token))
  {
    if !Truthy(header) || !StartsWith(header.value, BearerPrefix) then MissingOrInvalid
    else
      var token := header.value[7..];
      assert header.value == BearerPrefix + token;
      if token == "" then assert BearerPrefix + token == BearerPrefix; TokenMissing else Token(token)
  }

  /** Round trip with the frontend: the header built for any non-empty
      token parses back to that token. */
  lemma BearerRoundTrip(token: string)
    requires token != ""
    ensures ParseAuthorization(Some(BearerHeader(token))) == Token(token)
  {
    var h := BearerHeader(token);
    assert h[..7] == BearerPrefix;
    assert h[7..] == token;
  }

  /** The request context handed to the route handlers: `req.user`, and
      `req.token` (`None` when the middleware never set it). */
  datatype Context = Context(user: User, token: Option<string>)

  /** `next()` called once with the context, or a rejection reply. */
  datatype GateResult = Next(ctx: Context) | Reject(status: int, body: ErrorBody)

  const InvalidHeader: ErrorBody := ErrorBody("Unauthorized",
    "Missing or invalid Authorization header. Expected format: Bearer <token>", None)
  const MissingToken: ErrorBody := ErrorBody("Unauthorized", "Token is missing", None)
  const InvalidToken: ErrorBody := ErrorBody("Unauthorized", "Invalid or expired token", None)
  const AuthFailed: ErrorBody := ErrorBody("Internal Server Error", "Authentication failed", None)

  /** The middleware with the context-building step a parameter: the
      outcome depends only on the parsed header and the verifier's answer. */
  function Gate(header: Option<string>, c: Client, provider: string -> Verdict, attachToken: bool): (r: GateResult)
  {
    match ParseAuthorization(header)
    case MissingOrInvalid => Reject(401, InvalidHeader)
    case TokenMissing => Reject(401, MissingToken)
    case Token(token) =>
      match GetUser(c, provider, token)
      case Threw(_) => Reject(500, AuthFailed)
      case Answered(user, error) =>
        if error.Some? || user.None? then Reject(401, InvalidToken)
        else Next(Context(user.value, if attachToken then Some(token) else None))
  }

  /** `authMiddleware` as written: it sets `req.user` only. */
  function AuthenticateAsWritten(header: Option<string>, c: Client, provider: string -> Verdict): (r: GateResult)
    ensures r.Next? ==> r.ctx.token.None?
  {
    Gate(header, c, provider, false)
  }

  /** `authMiddleware` with the token attached as the controllers expect:
      every outcome is the as-written one, except that the context also
      carries the token taken from the header. */
  function Authenticate(header: Option<string>, c: Client, provider: string -> Verdict): (r: GateResult)
    ensures header.None? || !StartsWith(header.value, BearerPrefix) ==> r == Reject(401, InvalidHeader)
    ensures header == Some(BearerPrefix) ==> r == Reject(401, MissingToken)
    ensures r.Next? <==> (
      && ParseAuthorization(header).Token?
      && var v := GetUser(c, provider, ParseAuthorization(header).token);
         v.Answered? && v.error.None? && v.user.Some?)
    ensures r.Next? ==>
      && ParseAuthorization(header).Token?
      && r.ctx.token == Some(ParseAuthorization(header).token)
      && GetUser(c, provider, r.ctx.token.value) == Answered(Some(r.ctx.user), None)
    ensures r.Reject? ==> r.status in {401, 500}
    ensures r.Reject? && r.status == 500 ==> GetUser(c, provider, ParseAuthorization(header).token).Threw?
    ensures c.stub && ParseAuthorization(header).Token? ==> r == Reject(500, AuthFailed)
    ensures AuthenticateAsWritten(header, c, provider) ==
      (if r.Next? then Next(r.ctx.(token := None)) else r)
  {
    Gate(header, c, provider, true)
  }

  /** The `Authorization` header the task and profile handlers build for
      their database client from `req.token` (template-string rendering of
      a missing value gives `undefined`). */
  function ForwardedHeader(ctx: Context): string {
    BearerPrefix + (if ctx.token.Some? then ctx.token.value else "undefined")
  }

  /** As written, every authenticated request reaches the database with the
      header `Bearer undefined` instead of the caller's token. */
  lemma AsWrittenForwardsUndefined(header: Option<string>, c: Client, provider: string -> Verdict)
    requires AuthenticateAsWritten(header, c, provider).Next?
    ensures ForwardedHeader(AuthenticateAsWritten(header, c, provider).ctx) == "Bearer undefined"
  {
  }

  /** With the token attached, the handlers forward exactly the header the
      request arrived with. */
  lemma ForwardedHeaderRoundTrip(header: Option<string>, c: Client, provider: string -> Verdict)
    requires Authenticate(header, c, provider).Next?
    ensures Some(ForwardedHeader(Authenticate(header, c, provider).ctx)) == header
  {
  }

  /** Concrete instance: token `abc` accepted by the provider. */
  lemma TokenDroppedExample(u: User)
    ensures var provider := (t: string) => Answered(Some(u), None);
      var c := Client(false, JsBool(true));
      && ForwardedHeader(AuthenticateAsWritten(Some("Bearer abc"), c, provider).ctx) == "Bearer undefined"
      && ForwardedHeader(Authenticate(Some("Bearer abc"), c, provider).ctx) == "Bearer abc"
  {
    BearerRoundTrip("abc");
    assert BearerHeader("abc") == "Bearer abc";
  }
}

=== FILE: backend_config.dfy ===
/** Backend configuration: the placeholder test on the two environment
    values, the `hasValidCredentials` flag, and the client it selects (a
    real client, or a stub whose `getUser` always throws). Environment
    values are parameters; `None` stands for an unset variable. */
module BackendConfig {
  import opened JsValues
  import opened JsStrings
  import opened Identity

  /** `isPlaceholder` with every disjunct as the backend writes it. */
  predicate IsPlaceholder(value: Option<string>) {
    || !Truthy(value)
    || Contains(value.value, "your-project")
    || Contains(value.value, "your_supabase")
    || value.value == "your_supabase_anon_key"
    || value.value == "your_supabase_project_url"
    || Contains(value.value, "placeholder")
  }

  /** The two exact comparisons are subsumed by the `your_supabase`
      substring test: the predicate is missing-or-contains-a-marker. */
  lemma IsPlaceholderByMarkers(value: Option<string>)
    ensures IsPlaceholder(value) <==>
      || !Truthy(value)
      || Contains(value.value, "your-project")
      || Contains(value.value, "your_supabase")
      || Contains(value.value, "placeholder")
  {
    if Truthy(value) && (value.value == "your_supabase_anon_key" || value.value == "your_supabase_project_url") {
      ContainsAt(value.value, "your_supabase", 0);
    }
  }

  /** A JavaScript value that a `&&` chain over the environment values can
      produce: the first falsy operand, or the last operand. */
  datatype JsValue = JsUndefined | JsString(s: string) | JsBool(b: bool)

  predicate JsTruthy(v: JsValue) {
    match v
    case JsUndefined => false
    case JsString(s) => s != ""
    case JsBool(b) => b
  }

  /** `supabaseUrl && supabaseAnonKey && !isPlaceholder(url) && !isPlaceholder(key)`:
      truthy exactly when both values are set and neither is a placeholder.
      When falsy it may be `undefined`, `""` or `false`, not only `false`. */
  function HasValidCredentials(url: Option<string>, key: Option<string>): (v: JsValue)
    ensures JsTruthy(v) <==> Truthy(url) && Truthy(key) && !IsPlaceholder(url) && !IsPlaceholder(key)
    ensures JsTruthy(v) ==> v == JsBool(true)
    ensures !JsTruthy(v) ==> v in {JsUndefined, JsString(""), JsBool(false)}
  {
    if url.None? then JsUndefined
    else if url.value == "" then JsString("")
    else if key.None? then JsUndefined
    else if key.value == "" then JsString("")
    else JsBool(!IsPlaceholder(url) && !IsPlaceholder(key))
  }

  /** What the client's `auth.getUser(token)` does: resolve (to a user or
      an error, either possibly missing), or throw. */
  datatype Verdict = Answered(user: Option<User>, error: Option<string>) | Threw(message: string)

  /** The exported client. `isConfigured` is fixed when it is built and no
      operation of this model changes it. */
  datatype Client = Client(stub: bool, isConfigured: JsValue)

  function MakeClient(url: Option<string>, key: Option<string>): (c: Client)
    ensures c.isConfigured == HasValidCredentials(url, key)
    ensures c.stub <==> !JsTruthy(c.isConfigured)
  {
    var v := HasValidCredentials(url, key);
    Client(!JsTruthy(v), v)
  }

  const NotConfiguredMessage: string :=
    "Supabase is not configured. Please set SUPABASE_URL and SUPABASE_ANON_KEY in your .env file."

  /** `supabase.auth.getUser(token)`: the real client asks the identity
      provider (the `provider` oracle); the stub always throws. */
  function GetUser(c: Client, provider: string -> Verdict, token: string): (v: Verdict)
    ensures c.stub ==> v == Threw(NotConfiguredMessage)
    ensures !c.stub ==> v == provider(token)
  {
    if c.stub then Threw(NotConfiguredMessage) else provider(token)
  }

  /** Unconfigured credentials make every token verification throw. */
  lemma UnconfiguredAlwaysThrows(url: Option<string>, key: Option<string>, provider: string -> Verdict, token: string)
    requires IsPlaceholder(url) || IsPlaceholder(key)
    ensures GetUser(MakeClient(url, key), provider, token).Threw?
  {
  }
}

=== FILE: frontend_config.dfy ===
/** Frontend configuration: its own placeholder test, the warning
    condition, and the fallback values the client is built with when the
    environment values are unset. */
module FrontendConfig {
  import opened JsValues
  import opened JsStrings
  import BackendConfig

  /** `isPlaceholder` with every disjunct as the frontend writes it (no
      test for the word `placeholder`, unlike the backend). */
  predicate IsPlaceholder(value: Option<string>) {
    || !Truthy(value)
    || Contains(value.value, "your-project")
    || Contains(value.value, "your_supabase")
    || value.value == "your_supabase_anon_key_here"
    || value.value == "your_supabase_project_url"
  }

  /** The exact comparisons are subsumed by the `your_supabase` test. */
  lemma IsPlaceholderByMarkers(value: Option<string>)
    ensures IsPlaceholder(value) <==>
      !Truthy(value) || Contains(value.value, "your-project") || Contains(value.value, "your_supabase")
  {
    if Truthy(value) && (value.value == "your_supabase_anon_key_here" || value.value == "your_supabase_project_url") {
      ContainsAt(value.value, "your_supabase", 0);
    }
  }

  /** The warning condition `!url || !key || isPlaceholder(url) || isPlaceholder(key)`. */
  predicate ShowsWarning(url: Option<string>, key: Option<string>) {
    !Truthy(url) || !Truthy(key) || IsPlaceholder(url) || IsPlaceholder(key)
  }

  /** The warning fires exactly when either value is a placeholder (an
      unset value already counts as one). */
  lemma WarningIffPlaceholder(url: Option<string>, key: Option<string>)
    ensures ShowsWarning(url, key) <==> IsPlaceholder(url) || IsPlaceholder(key)
  {
  }

  const FallbackUrl: string := "https://placeholder.supabase.co"
  const FallbackKey: string := "placeholder-key"

  /** The URL and key passed to `createClient`: `value || fallback`. */
  function ClientSettings(url: Option<string>, key: Option<string>): (settings: (string, string))
    ensures Truthy(url) ==> settings.0 == url.value
    ensures !Truthy(url) ==> settings.0 == FallbackUrl
    ensures Truthy(key) ==> settings.1 == key.value
    ensures !Truthy(key) ==> settings.1 == FallbackKey
  {
    (OrElse(url, FallbackUrl), OrElse(key, FallbackKey))
  }

  /** The fallback values, which contain only the word `placeholder`,
      pass the frontend test. */
  lemma FallbacksPassFrontendTest()
    ensures !IsPlaceholder(Some(FallbackUrl)) && !IsPlaceholder(Some(FallbackKey))
  {
    var u, k := FallbackUrl, FallbackKey;
    assert 'j' !in u && '_' !in u && 'j' !in k && '_' !in k;
    NoMarkerIn(u);
    NoMarkerIn(k);
  }

  /** The same fallback values fail the backend test. */
  lemma FallbacksFailBackendTest()
    ensures BackendConfig.IsPlaceholder(Some(FallbackUrl)) && BackendConfig.IsPlaceholder(Some(FallbackKey))
  {
    var u, k := FallbackUrl, FallbackKey;
    assert u == "https://" + "placeholder" + ".supabase.co";
    assert u[8..19] == "placeholder";
    BackendFlagsPlaceholderWord(u, 8);
    assert k == "placeholder" + "-key";
    assert k[0..11] == "placeholder";
    BackendFlagsPlaceholderWord(k, 0);
  }

  /** A value with no `j` and no `_` contains neither frontend marker. */
  lemma NoMarkerIn(value: string)
    requires 'j' !in value && '_' !in value
    ensures !IsPlaceholder(Some(value)) <==> value != ""
  {
    assert "your-project"[8] == 'j';
    assert "your_supabase"[4] == '_';
    MissingCharExcludes(value, "your-project", 'j');
    MissingCharExcludes(value, "your_supabase", '_');
  }

  /** The backend flags any value containing the word `placeholder`. */
  lemma BackendFlagsPlaceholderWord(value: string, i: nat)
    requires i + 11 <= |value| && value[i..i + 11] == "placeholder"
    ensures BackendConfig.IsPlaceholder(Some(value))
  {
    ContainsAt(value, "placeholder", i);
  }
}

=== FILE: http.dfy ===
/** The JSON envelopes the backend answers with: a status code and either
    a success payload or an error body `{error, message, details?}`. */
module Http {
  import opened JsValues

  datatype ErrorBody = ErrorBody(error: string, message: string, details: Option<string>)

  datatype Reply<+T> =
    | Success(status: int, message: string, value: T)
    | Failure(status: int, body: ErrorBody)

  /** The answer of an external store or identity call: it succeeded, or
      it reported an error with a message. */
  datatype DbOutcome = DbOk | DbError(message: string)

  function ValidationError(message: string): ErrorBody {
    ErrorBody("Validation Error", message, None)
  }

  function DatabaseError(message: string, details: string): ErrorBody {
    ErrorBody("Database Error", message, Some(details))
  }

  /** The body of every caught exception in the controllers. */
  const UnexpectedError: ErrorBody := ErrorBody("Internal Server Error", "An unexpected error occurred", None)

  /** The result of a validation step: the value to send on, or the 400 body. */
  datatype Validated<+T> = Valid(value: T) | Invalid(error: ErrorBody)
}

=== FILE: http_client.dfy ===
/** The shape of an error thrown by the frontend's HTTP client: an
    optional error code, an optional message, and the server's response
    when there was one (its status and its `{message, details}` body). */
module HttpClient {
  import opened JsValues
  import opened JsStrings
  import Http

  datatype ResponseData = ResponseData(message: Option<string>, details: Option<string>)

  datatype HttpResponse = HttpResponse(status: int, data: Option<ResponseData>)

  datatype ClientError = ClientError(code: Option<string>, message: Option<string>, response: Option<HttpResponse>)

  /** The answer of a request: the decoded body, or the thrown error. */
  datatype Answer<+T> = Ok(value: T) | Err(error: ClientError)

  /** `err.code === 'ECONNREFUSED' || err.message?.includes('Network Error')`. */
  predicate RefusedOrNetwork(e: ClientError) {
    e.code == Some("ECONNREFUSED") || (e.message.Some? && Contains(e.message.value, "Network Error"))
  }

  /** `err.response?.status === s`. */
  predicate HasStatus(e: ClientError, s: int) {
    e.response.Some? && e.response.value.status == s
  }

  /** `err.response?.data?.message`. */
  function ServerMessage(e: ClientError): Option<string> {
    if e.response.Some? && e.response.value.data.Some? then e.response.value.data.value.message else None
  }

  /** The error carries a server reply with status `status` and error body
      `body` (its `message` and `details` members). */
  predicate Carries(e: ClientError, status: int, body: Http.ErrorBody) {
    e.response == Some(HttpResponse(status, Some(ResponseData(Some(body.message), body.details))))
  }

  /** `err.response?.data?.details`. */
  function ServerDetails(e: ClientError): Option<string> {
    if e.response.Some? && e.response.value.data.Some? then e.response.value.data.value.details else None
  }
}

=== FILE: identity.dfy ===
/** The identity provider's user record as the backend receives it.
    Metadata values are modelled as strings or null; other JSON values
    are not part of this model. */
module Identity {
  import opened JsValues

  datatype MetaValue = MetaNull | MetaString(s: string)

  type Metadata = map<string, MetaValue>

  datatype User = User(
    id: string,
    email: Option<string>,
    emailConfirmedAt: Option<string>,
    createdAt: string,
    updatedAt: string,
    userMetadata: Option<Metadata>)
}

=== FILE: js_strings.dfy ===
/** The few JavaScript string operations the application relies on:
    `trim`, `startsWith`, `includes`, and the `\s` class of regular
    expressions (which is the same character set `trim` removes). */
module JsStrings {

  /** The ECMAScript WhiteSpace and LineTerminator code points. */
  predicate IsWhitespace(c: char) {
    || c == '\t' || c == '\n' || c == '\U{000B}' || c == '\U{000C}' || c == '\r'
    || c == ' ' || c == '\U{00A0}' || c == '\U{1680}'
    || ('\U{2000}' <= c <= '\U{200A}')
    || c == '\U{2028}' || c == '\U{2029}' || c == '\U{202F}' || c == '\U{205F}'
    || c == '\U{3000}' || c == '\U{FEFF}'
  }

  predicate AllWhitespace(s: string) {
    forall k :: 0 <= k < |s| ==> IsWhitespace(s[k])
  }

  /** Drops leading whitespace. */
  function TrimStart(s: string): (r: string)
    ensures |r| <= |s| && r == s[|s| - |r|..]
    ensures forall k :: 0 <= k < |s| - |r| ==> IsWhitespace(s[k])
    ensures r == [] || !IsWhitespace(r[0])
  {
    if |s| > 0 && IsWhitespace(s[0]) then TrimStart(s[1..]) else s
  }

  /** Drops trailing whitespace. */
  function TrimEnd(s: string): (r: string)
    ensures |r| <= |s| && r == s[..|r|]
    ensures forall k :: |r| <= k < |s| ==> IsWhitespace(s[k])
    ensures r == [] || !IsWhitespace(r[|r| - 1])
  {
    if |s| > 0 && IsWhitespace(s[|s| - 1]) then TrimEnd(s[..|s| - 1]) else s
  }

  /** The result is `s` with exactly a whitespace prefix of length `i` and a
      whitespace suffix from `j` on removed. */
  predicate StripsSurrounding(s: string, r: string, i: nat, j: nat) {
    i <= j <= |s| && r == s[i..j] && AllWhitespace(s[..i]) && AllWhitespace(s[j..])
  }

  /** `String.prototype.trim`: the input with only its surrounding
      whitespace removed. The result is empty exactly when the input is all
      whitespace, it never starts or ends with whitespace, and a string with
      no surrounding whitespace is returned as it is. */
  function Trim(s: string): (r: string)
    ensures |r| <= |s|
    ensures exists i: nat, j: nat :: StripsSurrounding(s, r, i, j)
    ensures r == [] <==> AllWhitespace(s)
    ensures r != [] ==> !IsWhitespace(r[0]) && !IsWhitespace(r[|r| - 1])
    ensures s != [] && !IsWhitespace(s[0]) && !IsWhitespace(s[|s| - 1]) ==> r == s
  {
    TrimEnds(s);
    TrimStrips(s);
    TrimEnd(TrimStart(s))
  }

  lemma TrimEnds(s: string)
    ensures var b := TrimEnd(TrimStart(s));
      && (b == [] <==> AllWhitespace(s))
      && (b != [] ==> !IsWhitespace(b[0]))
  {
    var a := TrimStart(s);
    var b := TrimEnd(a);
    if b == [] {
      assert a == [];
    } else {
      assert b[0] == a[0];
    }
  }

  lemma TrimStrips(s: string)
    ensures exists i: nat, j: nat :: StripsSurrounding(s, TrimEnd(TrimStart(s)), i, j)
  {
    var a := TrimStart(s);
    var b := TrimEnd(a);
    var i: nat := |s| - |a|;
    var j: nat := i + |b|;
    assert b == s[i..j];
    assert AllWhitespace(s[..i]) by {
      forall k | 0 <= k < i ensures IsWhitespace(s[..i][k]) {
        assert s[..i][k] == s[k];
      }
    }
    assert AllWhitespace(s[j..]) by {
      forall k | 0 <= k < |s| - j ensures IsWhitespace(s[j..][k]) {
        assert s[j..][k] == a[|b| + k];
      }
    }
    assert StripsSurrounding(s, b, i, j);
  }

  /** Trimming `" a "` gives `"a"`. */
  lemma TrimExample()
    ensures Trim(" a ") == "a"
  {
    var s := " a ";
    var i: nat, j: nat :| StripsSurrounding(s, Trim(s), i, j);
    assert |s| == 3;
    assert StripsSurrounding(s, Trim(s), i, j);
    assert i <= j <= 3;
    assert !IsWhitespace(s[1]);
    assert i == 1 && j == 2;
  }

  /** Trimming twice is trimming once. */
  lemma TrimIdempotent(s: string)
    ensures Trim(Trim(s)) == Trim(s)
  {
  }

  /** `String.prototype.startsWith`. */
  predicate StartsWith(s: string, p: string) {
    |p| <= |s| && s[..|p|] == p
  }

  /** `String.prototype.includes`: `p` occurs somewhere in `s`. */
  predicate Contains(s: string, p: string)
    decreases |s|
  {
    StartsWith(s, p) || (|s| > 0 && Contains(s[1..], p))
  }

  /** An occurrence of `p` at any offset makes `Contains` hold. */
  lemma {:induction false} ContainsAt(s: string, p: string, i: nat)
    requires i + |p| <= |s| && s[i..i + |p|] == p
    ensures Contains(s, p)
    decreases i
  {
    if i > 0 {
      assert s[1..][i - 1..i - 1 + |p|] == s[i..i + |p|];
      ContainsAt(s[1..], p, i - 1);
    } else {
      assert s[..|p|] == p;
    }
  }

  /** Conversely, `Contains` always has an occurrence as its witness. */
  lemma {:induction false} ContainsWitness(s: string, p: string) returns (i: nat)
    requires Contains(s, p)
    ensures i + |p| <= |s| && s[i..i + |p|] == p
    decreases |s|
  {
    if StartsWith(s, p) {
      i := 0;
    } else {
      var j := ContainsWitness(s[1..], p);
      assert s[1..][j..j + |p|] == s[j + 1..j + 1 + |p|];
      i := j + 1;
    }
  }

  /** `p` occurs in `s` at offset `i`. */
  predicate OccursAt(s: string, p: string, i: nat) {
    i + |p| <= |s| && s[i..i + |p|] == p
  }

  /** `includes` holds exactly when `p` occurs in `s` at some offset. */
  lemma ContainsIffOccurs(s: string, p: string)
    ensures Contains(s, p) <==> exists i: nat :: OccursAt(s, p, i)
  {
    if Contains(s, p) {
      var i := ContainsWitness(s, p);
      assert OccursAt(s, p, i);
    }
    if exists i: nat :: OccursAt(s, p, i) {
      var i: nat :| OccursAt(s, p, i);
      ContainsAt(s, p, i);
    }
  }

  /** A string lacking a character of `p` cannot contain `p`. */
  lemma {:induction false} MissingCharExcludes(s: string, p: string, c: char)
    requires c in p && c !in s
    ensures !Contains(s, p)
    decreases |s|
  {
    if |s| > 0 {
      assert c !in s[1..];
      MissingCharExcludes(s[1..], p, c);
    }
  }
}

=== FILE: js_values.dfy ===
/** JavaScript value shapes shared by the backend and the frontend model.
    Only the shapes the application actually inspects are modelled:
    a missing-or-present value, and a JSON body member that can be
    absent (`undefined`), `null`, or carry a value. */
module JsValues {

  /** A value that may be missing (`undefined` or `null` collapsed). */
  datatype Option<+T> = None | Some(value: T)

  /** A member of a JSON request body: absent, explicitly `null`, or a value.
      The controllers distinguish `!== undefined` (present, possibly null)
      from truthiness, so the three cases are kept apart. */
  datatype Field<+T> = Undefined | Null | Defined(value: T)

  /** JavaScript truthiness of an optional string: `undefined`, `null`
      and `""` are falsy, every other string is truthy. */
  predicate Truthy(s: Option<string>) {
    s.Some? && s.value != ""
  }

  /** JavaScript truthiness of a body member holding a string. */
  predicate FieldTruthy(f: Field<string>) {
    f.Defined? && f.value != ""
  }

  /** `s || fallback` for an optional string. */
  function OrElse(s: Option<string>, fallback: string): string {
    if Truthy(s) then s.value else fallback
  }

  /** `f || null` for a string body member: falsy values become null. */
  function FieldOrNull(f: Field<string>): Option<string> {
    if FieldTruthy(f) then Some(f.value) else None
  }
}

=== FILE: kanban_board.dfy ===
/** The kanban board: tasks partitioned into columns keyed by column id,
    and the drag-end handler that moves one task within a column or
    across columns. The handler is a pure function from the board before
    the drop to the board after it. */
module KanbanBoard {
  import opened JsValues
  import opened TaskCard
  import opened SeqEdit

  type Board = map<string, seq<Task>>

  const Pending: string := "pending"
  const InProgress: string := "in-progress"
  const Completed: string := "completed"

  /** The three column ids the board renders. */
  const ColumnIds: set<string> := {Pending, InProgress, Completed}

  /** A position reported by the drag-and-drop library. */
  datatype Location = Location(droppableId: string, index: int)

  /** The board has exactly the three rendered columns. */
  predicate WellShaped(b: Board) {
    b.Keys == ColumnIds
  }

  /** Every task sits in the column its status names. */
  predicate StatusesMatchColumns(b: Board) {
    forall col, k :: col in b && 0 <= k < |b[col]| ==> b[col][k].status == col
  }

  /** What the drag-and-drop library can report: the source is a task of
      a registered column, and the destination (if any) is a registered
      column and an insertion point within it once the task has left. */
  predicate ValidDrop(b: Board, source: Location, destination: Option<Location>) {
    && source.droppableId in b
    && 0 <= source.index < |b[source.droppableId]|
    && (destination.Some? ==>
          && destination.value.droppableId in b
          && 0 <= destination.value.index
          && destination.value.index <= |b[destination.value.droppableId]|
               - (if destination.value.droppableId == source.droppableId then 1 else 0))
  }

  /** The status a task takes when dropped into column `id`: the two named
      ids map to themselves and every other id maps to "completed". */
  function StatusForColumn(id: string): (status: string)
    ensures id in ColumnIds ==> status == id
    ensures id != Pending && id != InProgress ==> status == Completed
  {
    if id == Pending then Pending
    else if id == InProgress then InProgress
    else Completed
  }

  /** `onDragEnd`. */
  function OnDragEnd(b: Board, source: Location, destination: Option<Location>): (r: Board)
    requires ValidDrop(b, source, destination)
    ensures r.Keys == b.Keys
    // dropped outside any column, or back onto its own place: nothing changes
    ensures destination.None? ==> r == b
    ensures destination == Some(source) ==> r == b
    // columns other than the source and destination are untouched
    ensures forall col :: (col in b && col != source.droppableId
              && (destination.None? || col != destination.value.droppableId)) ==> r[col] == b[col]
  {
    match destination
    case None => b
    case Some(dest) =>
      if dest.droppableId == source.droppableId && dest.index == source.index then b
      else
        var sourceColumn := b[source.droppableId];
        var task := sourceColumn[source.index];
        if source.droppableId == dest.droppableId then
          b[source.droppableId := InsertAt(RemoveAt(sourceColumn, source.index), dest.index, task)]
        else
          var moved := task.(status := StatusForColumn(dest.droppableId));
          b[source.droppableId := RemoveAt(sourceColumn, source.index)]
           [dest.droppableId := InsertAt(b[dest.droppableId], dest.index, moved)]
  }

  /** A reorder within one column permutes that column, puts the dragged
      task at the destination index, keeps the relative order of the other
      tasks, and changes no other column. */
  lemma SameColumnMove(b: Board, source: Location, dest: Location)
    requires ValidDrop(b, source, Some(dest)) && dest.droppableId == source.droppableId
    ensures var r := OnDragEnd(b, source, Some(dest));
      var col := source.droppableId;
      && |r[col]| == |b[col]|
      && multiset(r[col]) == multiset(b[col])
      && r[col][dest.index] == b[col][source.index]
      && RemoveAt(r[col], dest.index) == RemoveAt(b[col], source.index)
      && (forall other :: other in b && other != col ==> r[other] == b[other])
  {
    var col := source.droppableId;
    var r := OnDragEnd(b, source, Some(dest));
    MoveIsPermutation(b[col], source.index, dest.index);
    if dest.index != source.index {
      var rest := RemoveAt(b[col], source.index);
      assert r[col] == InsertAt(rest, dest.index, b[col][source.index]);
      RemoveInsert(rest, dest.index, b[col][source.index]);
    } else {
      InsertRemove(b[col], source.index);
    }
  }

  function Ids(s: seq<Task>): (ids: seq<string>)
    ensures |ids| == |s|
    ensures forall k :: 0 <= k < |s| ==> ids[k] == s[k].id
  {
    seq(|s|, k requires 0 <= k < |s| => s[k].id)
  }

  /** The multiset of task ids on a three-column board. */
  function BoardIds(b: Board): multiset<string>
    requires WellShaped(b)
  {
    multiset(Ids(b[Pending])) + multiset(Ids(b[InProgress])) + multiset(Ids(b[Completed]))
  }

  lemma IdsRemoveAt(s: seq<Task>, i: nat)
    requires i < |s|
    ensures Ids(RemoveAt(s, i)) == RemoveAt(Ids(s), i)
  {
  }

  lemma IdsInsertAt(s: seq<Task>, i: nat, t: Task)
    requires i <= |s|
    ensures Ids(InsertAt(s, i, t)) == InsertAt(Ids(s), i, t.id)
  {
  }

  /** On a board where every task sits in the column its status names,
      each card carries its column's colour, and no card in the completed
      column is ever shown as overdue. */
  lemma CardsFollowColumns(b: Board, now: int)
    requires StatusesMatchColumns(b)
    ensures forall k :: Pending in b && 0 <= k < |b[Pending]| ==> StatusColor(b[Pending][k].status) == YellowClass
    ensures forall k :: InProgress in b && 0 <= k < |b[InProgress]| ==> StatusColor(b[InProgress][k].status) == BlueClass
    ensures forall k :: Completed in b && 0 <= k < |b[Completed]| ==>
      StatusColor(b[Completed][k].status) == GreenClass && !IsOverdue(b[Completed][k], now)
  {
  }

  /** A move across columns takes the task out of the source column and
      inserts it into the destination column, where it gets the
      destination's status and keeps every other field. The remaining tasks
      of both columns keep their contents and order, and no other column
      changes. */
  lemma CrossColumnMove(b: Board, source: Location, dest: Location)
    requires ValidDrop(b, source, Some(dest)) && dest.droppableId != source.droppableId
    ensures var r := OnDragEnd(b, source, Some(dest));
      var task := b[source.droppableId][source.index];
      && |r[source.droppableId]| == |b[source.droppableId]| - 1
      && |r[dest.droppableId]| == |b[dest.droppableId]| + 1
      && r[dest.droppableId][dest.index] == task.(status := StatusForColumn(dest.droppableId))
      && r[source.droppableId] == RemoveAt(b[source.droppableId], source.index)
      && RemoveAt(r[dest.droppableId], dest.index) == b[dest.droppableId]
      && multiset(Ids(r[source.droppableId])) + multiset(Ids(r[dest.droppableId]))
         == multiset(Ids(b[source.droppableId])) + multiset(Ids(b[dest.droppableId]))
      && (forall other :: other in b && other != source.droppableId && other != dest.droppableId ==> r[other] == b[other])
  {
    var src := b[source.droppableId];
    var dst := b[dest.droppableId];
    var task := src[source.index];
    var moved := task.(status := StatusForColumn(dest.droppableId));
    RemoveInsert(dst, dest.index, moved);
    IdsRemoveAt(src, source.index);
    IdsInsertAt(dst, dest.index, moved);
    assert Ids(src)[source.index] == moved.id;
  }

  /** On a three-column board, the ids of columns `s`, `d` and the third one. */
  lemma BoardIdsByColumns(b: Board, s: string, d: string) returns (third: string)
    requires WellShaped(b) && s in ColumnIds && d in ColumnIds && s != d
    ensures third in ColumnIds && third != s && third != d
    ensures BoardIds(b) == multiset(Ids(b[s])) + multiset(Ids(b[d])) + multiset(Ids(b[third]))
  {
    third := if Pending != s && Pending != d then Pending
             else if InProgress != s && InProgress != d then InProgress
             else Completed;
  }

  /** Any drop keeps the multiset of task ids on a three-column board. */
  lemma MovePreservesIds(b: Board, source: Location, destination: Option<Location>)
    requires WellShaped(b) && ValidDrop(b, source, destination)
    ensures WellShaped(OnDragEnd(b, source, destination))
    ensures BoardIds(OnDragEnd(b, source, destination)) == BoardIds(b)
  {
    var r: Board := OnDragEnd(b, source, destination);
    if destination.Some? && destination.value != source {
      var dest := destination.value;
      var s := source.droppableId;
      var d := dest.droppableId;
      if s == d {
        SameColumnMoveKeepsIds(b, source, dest);
      } else {
        CrossColumnMove(b, source, dest);
        var third := BoardIdsByColumns(b, s, d);
        var third' := BoardIdsByColumns(r, s, d);
        assert third' == third;
      }
    }
  }

  lemma SameColumnMoveKeepsIds(b: Board, source: Location, dest: Location)
    requires WellShaped(b) && ValidDrop(b, source, Some(dest)) && dest.droppableId == source.droppableId
    ensures WellShaped(OnDragEnd(b, source, Some(dest)))
    ensures BoardIds(OnDragEnd(b, source, Some(dest))) == BoardIds(b)
  {
    var r: Board := OnDragEnd(b, source, Some(dest));
    var s := source.droppableId;
    SameColumnMove(b, source, dest);
    var col := b[s];
    IdsRemoveAt(col, source.index);
    IdsInsertAt(RemoveAt(col, source.index), dest.index, col[source.index]);
    assert multiset(Ids(r[s])) == multiset(Ids(b[s]));
  }

  /** Dropping keeps every task in the column its status names, provided the
      board has only the three rendered columns (a drop into any other
      column id would label the task "completed"). */
  lemma MovePreservesStatusInvariant(b: Board, source: Location, destination: Option<Location>)
    requires b.Keys <= ColumnIds && StatusesMatchColumns(b) && ValidDrop(b, source, destination)
    ensures StatusesMatchColumns(OnDragEnd(b, source, destination))
  {
    var r: Board := OnDragEnd(b, source, destination);
    if destination.Some? && destination.value != source {
      var dest := destination.value;
      var s := source.droppableId;
      var d := dest.droppableId;
      var task := b[s][source.index];
      if s == d {
        SameColumnMove(b, source, dest);
        forall k | 0 <= k < |r[s]| ensures r[s][k].status == s {
          assert r[s][k] in multiset(b[s]);
        }
      } else {
        forall col, k | col in r && 0 <= k < |r[col]| ensures r[col][k].status == col {
          if col == s {
            assert r[s][k] == b[s][if k < source.index then k else k + 1];
          } else if col == d {
            if k < dest.index {
              assert r[d][k] == b[d][k];
            } else if k > dest.index {
              assert r[d][k] == b[d][k - 1];
            }
          }
        }
      }
    }
  }

  /** Without the restriction to the three column ids the invariant can
      break: a drop into a column named "archived" labels the task
      "completed". */
  lemma UnknownColumnBreaksInvariant()
    ensures exists b: Board, source: Location, destination: Option<Location> ::
      && StatusesMatchColumns(b) && ValidDrop(b, source, destination)
      && !StatusesMatchColumns(OnDragEnd(b, source, destination))
  {
    var t := Task("1", "t", None, Pending, None, 0);
    var b: Board := map[Pending := [t], "archived" := []];
    var source := Location(Pending, 0);
    var dest := Some(Location("archived", 0));
    var r: Board := OnDragEnd(b, source, dest);
    assert r["archived"][0].status == Completed;
  }

  /** The board the component starts with (the mock data). */
  const InitialBoard: Board := map[
    Pending := [
      Task("1", "Design Landing Page", Some("Create wireframes and mockups for the new landing page design"),
           Pending, Some(1734652800), 1733788800),
      Task("2", "Write API Documentation", Some("Document all REST API endpoints with examples"),
           Pending, Some(1735084800), 1733875200),
      Task("3", "Setup CI/CD Pipeline", Some("Configure GitHub Actions for automated testing and deployment"),
           Pending, None, 1733961600)],
    InProgress := [
      Task("4", "Implement User Authentication", Some("Add login and signup functionality with JWT tokens"),
           InProgress, Some(1734480000), 1733616000),
      Task("5", "Database Schema Design", Some("Design and implement the database schema for the application"),
           InProgress, Some(1734825600), 1733702400)],
    Completed := [
      Task("6", "Project Setup", Some("Initialize the project with React and Vite"),
           Completed, Some(1734220800), 1733011200),
      Task("7", "Install Dependencies", Some("Install and configure all required packages"),
           Completed, Some(1734220800), 1733097600)]
  ]

  /** The initial board has the three columns and every task sits in the
      column its status names. */
  lemma InitialBoardConsistent()
    ensures WellShaped(InitialBoard)
    ensures StatusesMatchColumns(InitialBoard)
  {
  }
}

=== FILE: profile_controller.dfy ===
/** The profile endpoints: read the caller's identity as a profile view,
    validate and forward a profile update, and delete the account. Calls
    into the identity provider and the task table are oracle answers
    passed in as parameters. */
module ProfileController {
  import opened JsValues
  import opened JsStrings
  import opened SeqEdit
  import opened Identity
  import opened Http
  import opened BackendConfig
  import opened TaskController

  // ------------------------------------------------------------- the view

  datatype ProfileView = ProfileView(
    id: string,
    email: Option<string>,
    emailConfirmedAt: Option<string>,
    createdAt: string,
    updatedAt: string,
    metadata: Metadata)

  /** The profile object of a reply: the user's fields copied, metadata
      defaulting to `{}`. */
  function View(u: User): (v: ProfileView)
    ensures v.id == u.id && v.email == u.email && v.emailConfirmedAt == u.emailConfirmedAt
    ensures v.createdAt == u.createdAt && v.updatedAt == u.updatedAt
    ensures u.userMetadata.None? ==> v.metadata == map[]
    ensures u.userMetadata.Some? ==> v.metadata == u.userMetadata.value
  {
    ProfileView(u.id, u.email, u.emailConfirmedAt, u.createdAt, u.updatedAt,
      if u.userMetadata.Some? then u.userMetadata.value else map[])
  }

  const UserNotFound: ErrorBody := ErrorBody("Unauthorized", "User not found", None)

  /** `getProfile`: a lookup that errors or finds no user is a 401; a
      thrown lookup is a 500; otherwise the user's view. */
  function GetProfile(lookup: Verdict): (r: Reply<ProfileView>)
    ensures lookup.Answered? && (lookup.error.Some? || lookup.user.None?) ==> r == Failure(401, UserNotFound)
    ensures lookup.Threw? ==> r == Failure(500, UnexpectedError)
    ensures r.Success? <==> lookup.Answered? && lookup.error.None? && lookup.user.Some?
    ensures r.Success? ==> r.status == 200 && r.value == View(lookup.user.value)
  {
    match lookup
    case Threw(_) => Failure(500, UnexpectedError)
    case Answered(user, error) =>
      if error.Some? || user.None? then Failure(401, UserNotFound)
      else Success(200, "Profile fetched successfully", View(user.value))
  }

  // ------------------------------------------------------- email predicate

  /** A character of the class `[^\s@]`. */
  predicate Plain(c: char) {
    !IsWhitespace(c) && c != '@'
  }

  predicate AllPlain(s: string) {
    forall k :: 0 <= k < |s| ==> Plain(s[k])
  }

  /** The regular expression `^[^\s@]+@[^\s@]+\.[^\s@]+$` read literally:
      the string is `local@head.tail` with three non-empty runs of `[^\s@]`
      (the head may itself contain dots). */
  predicate MatchesEmailPattern(e: string) {
    exists i, j :: 0 < i && i + 1 < j && j + 1 < |e| && e[i] == '@' && e[j] == '.'
      && AllPlain(e[..i]) && AllPlain(e[i + 1..j]) && AllPlain(e[j + 1..])
  }

  /** The same shape stated field by field: no whitespace, exactly one `@`,
      a non-empty local part, and a `.` in the domain part that is neither
      its first nor its last character. */
  predicate IsEmailShape(e: string) {
    && (forall k :: 0 <= k < |e| ==> !IsWhitespace(e[k]))
    && match FirstIndex(e, (c: char) => c == '@')
       case None => false
       case Some(i) =>
         && i > 0
         && (forall k :: i < k < |e| ==> e[k] != '@')
         && exists k :: i + 1 < k < |e| - 1 && e[k] == '.'
  }

  /** The field-by-field description is exactly the regular expression. */
  lemma EmailShapeIsPattern(e: string)
    ensures IsEmailShape(e) <==> MatchesEmailPattern(e)
  {
    if IsEmailShape(e) {
      var i := FirstIndex(e, (c: char) => c == '@').value;
      var j :| i + 1 < j < |e| - 1 && e[j] == '.';
      assert AllPlain(e[..i]);
      assert AllPlain(e[i + 1..j]);
      assert AllPlain(e[j + 1..]);
    }
    if MatchesEmailPattern(e) {
      var i, j :| 0 < i && i + 1 < j && j + 1 < |e| && e[i] == '@' && e[j] == '.'
        && AllPlain(e[..i]) && AllPlain(e[i + 1..j]) && AllPlain(e[j + 1..]);
      forall k | 0 <= k < |e| ensures !IsWhitespace(e[k]) && (k != i ==> e[k] != '@') {
        if k < i {
          assert e[k] == e[..i][k];
        } else if i < k < j {
          assert e[k] == e[i + 1..j][k - i - 1];
        } else if j < k {
          assert e[k] == e[j + 1..][k - j - 1];
        }
      }
      assert FirstIndex(e, (c: char) => c == '@') == Some(i);
    }
  }

  // -------------------------------------------------------- update profile

  /** The members `email` and `metadata` of the request body. */
  datatype ProfileBody = ProfileBody(email: Field<string>, metadata: Field<Metadata>)

  /** The object passed to `auth.updateUser`; `Undefined` means the key is
      absent. */
  datatype UserPatch = UserPatch(email: Field<string>, data: Field<Metadata>)

  const NoProfileFields: string := "At least one field (email, metadata) must be provided for update"
  const InvalidEmail: string := "Invalid email format"

  /** Validation of `updateProfile`: the update object takes `email` and
      `metadata` (as `data`) exactly when they are present, unchanged; it
      must not be empty; a truthy email must have the email shape. An empty
      or null email skips the format check. */
  function ValidateProfileUpdate(body: ProfileBody): (r: Validated<UserPatch>)
    ensures body.email.Undefined? && body.metadata.Undefined? ==> r == Invalid(ValidationError(NoProfileFields))
    ensures (&& !(body.email.Undefined? && body.metadata.Undefined?)
             && FieldTruthy(body.email) && !IsEmailShape(body.email.value))
      ==> r == Invalid(ValidationError(InvalidEmail))
    ensures r.Valid? <==>
      && !(body.email.Undefined? && body.metadata.Undefined?)
      && (FieldTruthy(body.email) ==> MatchesEmailPattern(body.email.value))
    ensures r.Valid? ==> r.value.email == body.email && r.value.data == body.metadata
  {
    var patch := UserPatch(body.email, body.metadata);
    if patch.email.Undefined? && patch.data.Undefined? then Invalid(ValidationError(NoProfileFields))
    else if FieldTruthy(patch.email) && !IsEmailShape(patch.email.value) then
      EmailShapeIsPattern(body.email.value);
      Invalid(ValidationError(InvalidEmail))
    else
      assert FieldTruthy(body.email) ==> (EmailShapeIsPattern(body.email.value); MatchesEmailPattern(body.email.value));
      Valid(patch)
  }

  /** What `auth.updateUser(patch)` answers. */
  datatype UpdateAnswer = Updated(user: User) | UpdateFailed(message: string)

  /** `updateProfile`: the identity provider is asked only when validation
      passes, and is asked with exactly the validated update object. */
  function UpdateProfile(body: ProfileBody, updateUser: UserPatch -> UpdateAnswer): (r: Reply<ProfileView>)
    ensures ValidateProfileUpdate(body).Invalid? ==> r == Failure(400, ValidateProfileUpdate(body).error)
    ensures r.Success? <==> ValidateProfileUpdate(body).Valid? && updateUser(UserPatch(body.email, body.metadata)).Updated?
    ensures ValidateProfileUpdate(body).Valid? && updateUser(UserPatch(body.email, body.metadata)).UpdateFailed? ==>
      r == Failure(500, DatabaseError("Failed to update profile", updateUser(UserPatch(body.email, body.metadata)).message))
    ensures r.Success? ==> r.status == 200 && r.value == View(updateUser(UserPatch(body.email, body.metadata)).user)
    ensures r.Failure? ==> r.status in {400, 500}
  {
    match ValidateProfileUpdate(body)
    case Invalid(e) => Failure(400, e)
    case Valid(patch) =>
      match updateUser(patch)
      case UpdateFailed(m) => Failure(500, DatabaseError("Failed to update profile", m))
      case Updated(u) => Success(200, "Profile updated successfully", View(u))
  }

  // -------------------------------------------------------- delete account

  datatype DeletionReply = DeletionReply(status: int, message: string, accountDeleted: bool, note: Option<string>)

  datatype AccountDeletion = AccountDeletion(table: Table, reply: DeletionReply)

  const DeletedAll: string := "Account and all associated data deleted successfully"
  const AdminDeleteFailed: string :=
    "User data deleted successfully. Account deletion failed - please delete from Supabase dashboard."
  const DataOnly: string :=
    "User data deleted successfully. Please delete your account from Supabase dashboard."
  const ServiceKeyNote: string :=
    "To enable automatic account deletion, add SUPABASE_SERVICE_ROLE_KEY to your .env file"

  /** `deleteAccount`: delete the caller's tasks (a failure there is only
      logged), then delete the identity when a service key is configured.
      `serviceRoleKey` is the environment value; `adminDelete` is the answer
      of the administrative deletion. */
  function DeleteAccount(table: Table, caller: string, tasksDelete: DbOutcome,
                         serviceRoleKey: Option<string>, adminDelete: DbOutcome): (r: AccountDeletion)
    ensures r.reply.status == 200
    ensures r.reply.accountDeleted <==> Truthy(serviceRoleKey) && adminDelete.DbOk?
    ensures r.reply.note.Some? <==> !Truthy(serviceRoleKey)
    ensures r.reply.note.Some? ==> r.reply.note.value == ServiceKeyNote
    ensures tasksDelete.DbError? ==> r.table == table
    ensures tasksDelete.DbOk? ==>
      && (forall k :: 0 <= k < |r.table| ==> r.table[k].userId != caller && r.table[k] in table)
      && (forall k :: 0 <= k < |table| && table[k].userId != caller ==> table[k] in r.table)
  {
    var remaining := if tasksDelete.DbOk? then Filter(table, (row: Row) => row.userId != caller) else table;
    var reply :=
      if Truthy(serviceRoleKey) then
        if adminDelete.DbError? then DeletionReply(200, AdminDeleteFailed, false, None)
        else DeletionReply(200, DeletedAll, true, None)
      else DeletionReply(200, DataOnly, false, Some(ServiceKeyNote));
    AccountDeletion(remaining, reply)
  }

  /** A failure while deleting the tasks does not change the reply. */
  lemma TaskDeletionFailureNotFatal(table: Table, caller: string, m: string,
                                    serviceRoleKey: Option<string>, adminDelete: DbOutcome)
    ensures DeleteAccount(table, caller, DbError(m), serviceRoleKey, adminDelete).reply
         == DeleteAccount(table, caller, DbOk, serviceRoleKey, adminDelete).reply
  {
  }

  /** After a successful task deletion the caller's task list is empty. */
  lemma NoTasksAfterDeletion(table: Table, caller: string, serviceRoleKey: Option<string>,
                             adminDelete: DbOutcome, status: Option<string>)
    ensures var t := DeleteAccount(table, caller, DbOk, serviceRoleKey, adminDelete).table;
      GetTasks(t, caller, status, DbOk).Success? ==> GetTasks(t, caller, status, DbOk).value.count == 0
  {
  }
}

=== FILE: profile_page.dfy ===
/** The profile page: filling the form from the fetched profile, the
    update request it sends and the error line for a failed update, and
    the outcome of the account deletion. */
module ProfilePage {
  import opened JsValues
  import opened JsStrings
  import opened Identity
  import opened Http
  import opened HttpClient
  import opened ProfileController
  import BackendConfig

  datatype Form = Form(email: string, fullName: string, avatarUrl: string)

  /** `profileData.metadata?.<key> || ''`. */
  function MetaText(m: Metadata, key: string): string {
    if key in m && m[key].MetaString? then m[key].s else ""
  }

  /** The form filled from a fetched profile: missing, null or empty values
      become `''`, present strings are copied. */
  function FormFromProfile(p: ProfileView): (f: Form)
    ensures f.email == (if p.email.Some? then p.email.value else "")
    ensures "full_name" !in p.metadata || p.metadata["full_name"].MetaNull? ==> f.fullName == ""
    ensures "full_name" in p.metadata && p.metadata["full_name"].MetaString? ==> f.fullName == p.metadata["full_name"].s
    ensures "avatar_url" !in p.metadata || p.metadata["avatar_url"].MetaNull? ==> f.avatarUrl == ""
    ensures "avatar_url" in p.metadata && p.metadata["avatar_url"].MetaString? ==> f.avatarUrl == p.metadata["avatar_url"].s
  {
    Form(OrElse(p.email, ""), MetaText(p.metadata, "full_name"), MetaText(p.metadata, "avatar_url"))
  }

  /** Fetching the profile of a user the token resolves to fills the form
      with that user's email and the two metadata strings, and empty fields
      where they are missing. */
  lemma FormShowsFetchedUser(u: User)
    ensures var r := GetProfile(BackendConfig.Answered(Some(u), None));
      && r.Success?
      && var f := FormFromProfile(r.value);
      && f.email == (if u.email.Some? then u.email.value else "")
      && (u.userMetadata.None? ==> f.fullName == "" && f.avatarUrl == "")
      && ((u.userMetadata.Some? && "full_name" in u.userMetadata.value && u.userMetadata.value["full_name"].MetaString?)
          ==> f.fullName == u.userMetadata.value["full_name"].s)
      && ((u.userMetadata.Some? && "avatar_url" in u.userMetadata.value && u.userMetadata.value["avatar_url"].MetaString?)
          ==> f.avatarUrl == u.userMetadata.value["avatar_url"].s)
  {
  }

  /** The page after `fetchProfile`: the profile and form on success; on a
      401 a navigation to the login page and no error; otherwise the load
      error. Loading ends in every case. */
  datatype Fetched = Fetched(profile: Option<ProfileView>, form: Option<Form>, error: string, toLogin: bool)

  const LoadError: string := "Failed to load profile. Please try again."

  function FetchProfile(answer: Answer<ProfileView>): (r: Fetched)
    ensures answer.Ok? ==> r == Fetched(Some(answer.value), Some(FormFromProfile(answer.value)), "", false)
    ensures answer.Err? && HasStatus(answer.error, 401) ==> r.toLogin && r.error == "" && r.form.None?
    ensures answer.Err? && !HasStatus(answer.error, 401) ==> !r.toLogin && r.error == LoadError && r.form.None?
  {
    match answer
    case Ok(p) => Fetched(Some(p), Some(FormFromProfile(p)), "", false)
    case Err(e) =>
      if HasStatus(e, 401) then Fetched(None, None, "", true)
      else Fetched(None, None, LoadError, false)
  }

  /** `value || null` for a metadata entry. */
  function MetaOf(text: string): MetaValue {
    if text == "" then MetaNull else MetaString(text)
  }

  /** The metadata object the page sends: both keys, empty strings as null. */
  function BuildMetadata(f: Form): (m: Metadata)
    ensures m.Keys == {"full_name", "avatar_url"}
    ensures m["full_name"] == MetaNull <==> f.fullName == ""
    ensures m["avatar_url"] == MetaNull <==> f.avatarUrl == ""
    ensures f.fullName != "" ==> m["full_name"] == MetaString(f.fullName)
    ensures f.avatarUrl != "" ==> m["avatar_url"] == MetaString(f.avatarUrl)
  {
    map["full_name" := MetaOf(f.fullName), "avatar_url" := MetaOf(f.avatarUrl)]
  }

  /** The request body of `handleUpdate`: the email is always sent. */
  function UpdateRequest(f: Form): (body: ProfileBody)
    ensures body.email == Defined(f.email)
    ensures body.metadata == Defined(BuildMetadata(f))
  {
    ProfileBody(Defined(f.email), Defined(BuildMetadata(f)))
  }

  /** The page's request never trips the "no fields" check; it is refused
      only for a non-empty email that is not email-shaped, so an emptied
      email field goes through to the identity provider. */
  lemma UpdateRequestValidation(f: Form)
    ensures ValidateProfileUpdate(UpdateRequest(f)).Valid? <==> f.email == "" || MatchesEmailPattern(f.email)
    ensures ValidateProfileUpdate(UpdateRequest(f)) != Invalid(ValidationError(NoProfileFields))
  {
  }

  /** Saving an unedited form writes back the two metadata entries the
      page shows, with a missing or empty entry sent as null. */
  lemma UneditedFormRoundTrip(p: ProfileView, key: string)
    requires key == "full_name" || key == "avatar_url"
    ensures var sent := BuildMetadata(FormFromProfile(p))[key];
      && (key in p.metadata && p.metadata[key].MetaString? && p.metadata[key].s != "" ==> sent == p.metadata[key])
      && (key !in p.metadata || p.metadata[key] == MetaNull || p.metadata[key] == MetaString("") ==> sent == MetaNull)
  {
  }

  /** The error kinds of a failed update, in the order they are tested. */
  datatype UpdateFailure = CannotConnect | AuthFailure | BadRequest | ServerFailure | ServerSaid | ServerDetail | Generic

  /** A response reached the page and none of the connection, 401, 400
      and 500 branches applies. */
  predicate OtherResponse(e: ClientError) {
    && e.response.Some? && !RefusedOrNetwork(e)
    && !HasStatus(e, 401) && !HasStatus(e, 400) && !HasStatus(e, 500)
  }

  function UpdateErrorKind(e: ClientError): (k: UpdateFailure)
    ensures k == CannotConnect <==> RefusedOrNetwork(e) || e.response.None?
    ensures k == AuthFailure <==> !RefusedOrNetwork(e) && HasStatus(e, 401)
    ensures k == BadRequest <==> !RefusedOrNetwork(e) && HasStatus(e, 400)
    ensures k == ServerFailure <==> !RefusedOrNetwork(e) && HasStatus(e, 500)
    ensures k == ServerSaid <==> OtherResponse(e) && Truthy(ServerMessage(e))
    ensures k == ServerDetail <==> OtherResponse(e) && !Truthy(ServerMessage(e)) && Truthy(ServerDetails(e))
    ensures k == Generic <==> OtherResponse(e) && !Truthy(ServerMessage(e)) && !Truthy(ServerDetails(e))
  {
    if RefusedOrNetwork(e) || e.response.None? then CannotConnect
    else if HasStatus(e, 401) then AuthFailure
    else if HasStatus(e, 400) then BadRequest
    else if HasStatus(e, 500) then ServerFailure
    else if Truthy(ServerMessage(e)) then ServerSaid
    else if Truthy(ServerDetails(e)) then ServerDetail
    else Generic
  }

  /** The line shown when the backend at `apiUrl` cannot be reached. */
  function ConnectionLine(apiUrl: string): string {
    "Cannot connect to backend server at " + apiUrl + ". Please check if the backend is running and accessible."
  }

  /** The error line of a failed update, as the handler is evidently meant
      to work: `apiUrl` is the base URL the HTTP client was created with,
      which `getApiBaseURL` is meant to return. */
  function UpdateErrorMessage(e: ClientError, apiUrl: string): (msg: string)
    ensures e.response.None? ==> msg == ConnectionLine(apiUrl)
    ensures UpdateErrorKind(e) == ServerFailure ==>
      msg == OrElse(ServerDetails(e), OrElse(ServerMessage(e), "Server error. Please try again later."))
    ensures UpdateErrorKind(e) == BadRequest ==> msg == OrElse(ServerMessage(e), "Invalid data. Please check your input.")
    ensures UpdateErrorKind(e) == AuthFailure ==> msg == "Authentication failed. Please log in again."
    ensures UpdateErrorKind(e) == ServerSaid ==> msg == ServerMessage(e).value
    ensures UpdateErrorKind(e) == ServerDetail ==> msg == ServerDetails(e).value
    ensures UpdateErrorKind(e) == Generic ==> msg == GenericUpdateLine
    ensures msg != ""
  {
    match UpdateErrorKind(e)
    case CannotConnect => ConnectionLine(apiUrl)
    case AuthFailure => "Authentication failed. Please log in again."
    case BadRequest => OrElse(ServerMessage(e), "Invalid data. Please check your input.")
    case ServerFailure => OrElse(ServerDetails(e), OrElse(ServerMessage(e), "Server error. Please try again later."))
    case ServerSaid => ServerMessage(e).value
    case ServerDetail => ServerDetails(e).value
    case Generic => GenericUpdateLine
  }

  const GenericUpdateLine: string := "Failed to update profile. Please check your connection and try again."

  /** The error line `handleUpdate` leaves on screen as the code is
      written. The page imports `getApiBaseURL` from the API module, which
      does not export it. Where the import binds `undefined`, the call in
      the connection branch throws a `TypeError` before `setError`, so the
      line cleared at the start of the handler stays empty. */
  function UpdateErrorLineAsWritten(e: ClientError): (shown: string)
    ensures shown == "" <==> UpdateErrorKind(e) == CannotConnect
  {
    if UpdateErrorKind(e) == CannotConnect then "" else UpdateErrorMessage(e, "")
  }

  /** The handler as written agrees with the intended one on every error
      that carries a response, and shows nothing where the intended one
      reports that the backend cannot be reached. */
  lemma AsWrittenDiffersOnlyOffline(e: ClientError, apiUrl: string)
    ensures UpdateErrorKind(e) != CannotConnect ==> UpdateErrorLineAsWritten(e) == UpdateErrorMessage(e, apiUrl)
    ensures UpdateErrorKind(e) == CannotConnect ==> UpdateErrorLineAsWritten(e) == "" != UpdateErrorMessage(e, apiUrl)
  {
  }

  /** A refused connection: the intended handler names the server, the
      handler as written leaves the error line blank. */
  lemma RefusedConnectionShowsNothing()
    ensures var e := ClientError(Some("ECONNREFUSED"), None, None);
      && UpdateErrorLineAsWritten(e) == ""
      && UpdateErrorMessage(e, "http://localhost:3000/api") == ConnectionLine("http://localhost:3000/api")
  {
  }

  /** Every rejection of the profile update is shown with the server's
      words: a 400 with its message, a 500 with its details when there are
      any and otherwise its message, as long as the thrown error carries
      that reply. */
  lemma UpdateRejectionShown(body: ProfileBody, updateUser: UserPatch -> UpdateAnswer, e: ClientError, apiUrl: string)
    requires UpdateProfile(body, updateUser).Failure?
    requires var reply := UpdateProfile(body, updateUser);
      Carries(e, reply.status, reply.body) && !RefusedOrNetwork(e)
    ensures var reply := UpdateProfile(body, updateUser);
      && (reply.status == 400 ==> UpdateErrorMessage(e, apiUrl) == reply.body.message)
      && (reply.status == 500 ==> UpdateErrorMessage(e, apiUrl) == OrElse(reply.body.details, reply.body.message))
  {
    var reply := UpdateProfile(body, updateUser);
    assert reply.body.message != "";
  }

  /** The page after `handleDeleteAccount`: on success a message chosen by
      `accountDeleted` and a pending redirect, with `deleting` left set; on
      failure the error line and `deleting` cleared, while the success line
      the page already showed is left as it was. */
  datatype DeleteState = DeleteState(deleting: bool, error: string, success: string, redirect: bool)

  const AllDeleted: string := "Your account and all data have been deleted successfully."
  const DataDeleted: string :=
    "Your account data has been deleted. Please delete your account from the Supabase dashboard if needed."
  const DeleteFailed: string := "Failed to delete account. Please try again or contact support."

  function DeleteAccountOutcome(shownSuccess: string, answer: Answer<DeletionReply>): (r: DeleteState)
    ensures answer.Ok? ==> r.deleting && r.redirect && r.error == ""
    ensures answer.Ok? ==> (r.success == AllDeleted <==> answer.value.accountDeleted)
    ensures answer.Ok? && !answer.value.accountDeleted ==> r.success == DataDeleted
    ensures answer.Err? ==> !r.deleting && !r.redirect && r.success == shownSuccess
    ensures answer.Err? ==> r.error == OrElse(ServerMessage(answer.error), DeleteFailed)
  {
    match answer
    case Ok(reply) =>
      DeleteState(true, "", if reply.accountDeleted then AllDeleted else DataDeleted, true)
    case Err(e) => DeleteState(false, OrElse(ServerMessage(e), DeleteFailed), shownSuccess, false)
  }

  /** With the profile routes mounted, the page reports the account itself
      as deleted exactly when the backend had a service key and the
      administrative deletion succeeded. */
  lemma DeletionMessageFollowsBackend(table: TaskController.Table, caller: string, tasksDelete: DbOutcome,
                                      serviceRoleKey: Option<string>, adminDelete: DbOutcome, shownSuccess: string)
    ensures var reply := DeleteAccount(table, caller, tasksDelete, serviceRoleKey, adminDelete).reply;
      DeleteAccountOutcome(shownSuccess, Ok(reply)).success == AllDeleted <==> Truthy(serviceRoleKey) && adminDelete.DbOk?
  {
  }

  /** The error axios throws for the reply Express sends on a path with no
      route: status 404 and a body that is not a JSON object, so it has no
      `message` or `details`. */
  const UnroutedReply: ClientError :=
    ClientError(None, Some("Request failed with status code 404"), Some(HttpResponse(404, None)))

  /** The server as written mounts only the task routes, so every profile
      request meets a 404 without a JSON body: the page shows the load
      error, the generic update line and the generic deletion failure, and
      never the fetched profile or a server message. */
  lemma UnmountedProfileRoutes(e: ClientError, shownSuccess: string, apiUrl: string)
    requires e.response == Some(HttpResponse(404, None)) && !RefusedOrNetwork(e)
    ensures FetchProfile(Err(e)) == Fetched(None, None, LoadError, false)
    ensures UpdateErrorKind(e) == Generic
    ensures UpdateErrorMessage(e, apiUrl) == GenericUpdateLine
    ensures DeleteAccountOutcome(shownSuccess, Err(e)) == DeleteState(false, DeleteFailed, shownSuccess, false)
  {
  }

  /** The error axios throws for that 404 is not taken for a connection
      failure. */
  lemma UnroutedIsNotConnectionFailure()
    ensures UnroutedReply.response == Some(HttpResponse(404, None))
    ensures !RefusedOrNetwork(UnroutedReply)
  {
    var m := UnroutedReply.message.value;
    assert 'N' !in m by {
      forall k | 0 <= k < |m| ensures m[k] != 'N' { }
    }
    assert "Network Error"[0] == 'N';
    MissingCharExcludes(m, "Network Error", 'N');
  }
}

=== FILE: seq_edit.dfy ===
/** `Array.prototype.splice` as the board uses it: removing one element
    at an index, or inserting one element at an index, with the index in
    range (the drag-and-drop library never reports any other). */
module SeqEdit {
  import opened JsValues

  /** `a.splice(i, 1)`: the sequence without its `i`-th element. */
  function RemoveAt<T>(s: seq<T>, i: nat): (r: seq<T>)
    requires i < |s|
    ensures |r| == |s| - 1
    ensures forall k :: 0 <= k < i ==> r[k] == s[k]
    ensures forall k :: i <= k < |r| ==> r[k] == s[k + 1]
    ensures multiset(r) + multiset{s[i]} == multiset(s)
  {
    assert s == s[..i] + [s[i]] + s[i + 1..];
    s[..i] + s[i + 1..]
  }

  /** `a.splice(i, 0, x)`: the sequence with `x` placed at position `i`. */
  function InsertAt<T>(s: seq<T>, i: nat, x: T): (r: seq<T>)
    requires i <= |s|
    ensures |r| == |s| + 1
    ensures r[i] == x
    ensures forall k :: 0 <= k < i ==> r[k] == s[k]
    ensures forall k :: i < k < |r| ==> r[k] == s[k - 1]
    ensures multiset(r) == multiset(s) + multiset{x}
  {
    assert s == s[..i] + s[i..];
    s[..i] + [x] + s[i..]
  }

  /** Inserting and then removing at the same index gives the sequence back. */
  lemma RemoveInsert<T>(s: seq<T>, i: nat, x: T)
    requires i <= |s|
    ensures RemoveAt(InsertAt(s, i, x), i) == s
  {
  }

  /** Removing an element and putting it back where it was is the identity. */
  lemma InsertRemove<T>(s: seq<T>, i: nat)
    requires i < |s|
    ensures InsertAt(RemoveAt(s, i), i, s[i]) == s
  {
  }

  /** Moving an element within a sequence permutes the sequence. */
  lemma MoveIsPermutation<T>(s: seq<T>, i: nat, j: nat)
    requires i < |s| && j < |s|
    ensures multiset(InsertAt(RemoveAt(s, i), j, s[i])) == multiset(s)
  {
  }

  /** `Array.prototype.filter` (and a row filter of the store): the elements
      of `s` that satisfy `keep`, in their original order. */
  function Filter<T>(s: seq<T>, keep: T -> bool): (r: seq<T>)
    ensures |r| <= |s|
    ensures forall k :: 0 <= k < |r| ==> keep(r[k])
    ensures forall k :: 0 <= k < |r| ==> r[k] in s
    ensures forall k :: 0 <= k < |s| && keep(s[k]) ==> s[k] in r
    ensures multiset(r) <= multiset(s)
    ensures (forall k :: 0 <= k < |s| ==> keep(s[k])) ==> r == s
  {
    if |s| == 0 then []
    else
      var rest := Filter(s[1..], keep);
      assert s == [s[0]] + s[1..];
      if keep(s[0]) then [s[0]] + rest else rest
  }

  /** The index of the first element satisfying `p`, if there is one. */
  function FirstIndex<T>(s: seq<T>, p: T -> bool): (k: Option<nat>)
    ensures k.Some? ==> k.value < |s| && p(s[k.value]) && forall j :: 0 <= j < k.value ==> !p(s[j])
    ensures k.None? <==> forall j :: 0 <= j < |s| ==> !p(s[j])
  {
    if |s| == 0 then None
    else if p(s[0]) then Some(0)
    else match FirstIndex(s[1..], p)
      case None => None
      case Some(j) => Some(j + 1)
  }
}

=== FILE: task_card.dfy ===
/** The task card component: the client-side task record, the status
    colour classes and the overdue flag. Timestamps are integers (seconds
    since the epoch) and the current time is an explicit parameter. */
module TaskCard {
  import opened JsValues

  /** A task as the client holds it. `status` is a free string because
      the board rewrites it from column ids. */
  datatype Task = Task(
    id: string,
    title: string,
    description: Option<string>,
    status: string,
    dueDate: Option<int>,
    createdAt: int)

  const YellowClass: string := "bg-yellow-500/20 border-yellow-500/50"
  const BlueClass: string := "bg-blue-500/20 border-blue-500/50"
  const GreenClass: string := "bg-green-500/20 border-green-500/50"
  const GrayClass: string := "bg-gray-500/20 border-gray-500/50"

  /** `getStatusColor`: one class per known status, gray otherwise. */
  function StatusColor(status: string): (cls: string)
    ensures status == "pending" <==> cls == YellowClass
    ensures status == "in-progress" <==> cls == BlueClass
    ensures status == "completed" <==> cls == GreenClass
    ensures status !in {"pending", "in-progress", "completed"} <==> cls == GrayClass
  {
    match status
    case "pending" => YellowClass
    case "in-progress" => BlueClass
    case "completed" => GreenClass
    case _ => GrayClass
  }

  /** `isOverdue`: a task is overdue exactly when it has a due date that
      lies before `now` and it is not completed. */
  function IsOverdue(task: Task, now: int): (overdue: bool)
    ensures task.dueDate.None? ==> !overdue
    ensures task.status == "completed" ==> !overdue
    ensures overdue <==> task.dueDate.Some? && task.dueDate.value < now && task.status != "completed"
  {
    match task.dueDate
    case None => false
    case Some(due) => due < now && task.status != "completed"
  }

  /** Once overdue, a task stays overdue as time passes (until its status
      or due date changes). */
  lemma OverdueStaysOverdue(task: Task, now: int, later: int)
    requires now <= later
    ensures IsOverdue(task, now) ==> IsOverdue(task, later)
  {
  }

  /** `formatDate`: a missing date reads "No due date"; a present one is
      rendered by the locale formatter passed in. */
  function FormatDate(date: Option<int>, localeFormat: int -> string): (text: string)
    ensures date.None? ==> text == "No due date"
    ensures date.Some? ==> text == localeFormat(date.value)
  {
    match date
    case None => "No due date"
    case Some(d) => localeFormat(d)
  }
}

=== FILE: task_controller.dfy ===
/** The task endpoints: create, list, partial update and delete. The
    database is an abstract table of rows; whether the database call
    itself reports an error is an oracle outcome passed in, as are the
    identifier and timestamp the database assigns to a new row. */
module TaskController {
  import opened JsValues
  import opened JsStrings
  import opened SeqEdit
  import opened Http

  /** A row of the `tasks` table. `status` is nullable in the row because
      an update can write `null` into it (see `UpdateTask`). */
  datatype Row = Row(
    id: string,
    userId: string,
    title: string,
    description: Option<string>,
    status: Option<string>,
    dueDate: Option<string>,
    createdAt: int,
    updatedAt: int)

  type Table = seq<Row>

  /** The members `title`, `description`, `status`, `due_date` of a
      request body, each absent, null or a string. */
  datatype TaskBody = TaskBody(title: Field<string>, description: Field<string>, status: Field<string>, dueDate: Field<string>)

  /** The table after a request and the reply sent. */
  datatype Step<+T> = Step(table: Table, reply: Reply<T>)

  datatype Listing = Listing(count: int, tasks: seq<Row>)

  /** `updateData`: `title` present means a trimmed title; the other
      members are `Undefined` when absent from the update object. */
  datatype Patch = Patch(title: Option<string>, description: Field<string>, status: Field<string>, dueDate: Field<string>)

  const ValidStatuses: seq<string> := ["pending", "in-progress", "completed"]

  const StatusMessage: string := "Status must be one of: pending, in-progress, completed"
  const TitleRequired: string := "Title is required"
  const NothingToUpdate: string := "At least one field (title, description, status, due_date) must be provided for update"
  const TitleEmpty: string := "Title cannot be empty"

  predicate IsValidStatus(s: string) {
    s in ValidStatuses
  }

  /** `status && !validStatuses.includes(status)`: only a truthy status is checked. */
  predicate RejectedStatus(status: Field<string>) {
    FieldTruthy(status) && !IsValidStatus(status.value)
  }

  /** `!title || title.trim() === ''`. */
  predicate MissingTitle(title: Field<string>) {
    !title.Defined? || Trim(title.value) == ""
  }

  /** The row belongs to `caller` and carries identifier `id`. */
  predicate Matches(row: Row, id: string, caller: string) {
    row.id == id && row.userId == caller
  }

  /** Identifiers are unique in the table. */
  predicate UniqueIds(t: Table) {
    forall i, j :: 0 <= i < |t| && 0 <= j < |t| && t[i].id == t[j].id ==> i == j
  }

  // ---------------------------------------------------------------- create

  /** `createTask`: the title check comes first, then the status check;
      a request passing both inserts exactly one row owned by the caller. */
  function CreateTask(table: Table, caller: string, body: TaskBody, freshId: string, now: int, db: DbOutcome): (r: Step<Row>)
    ensures r.reply.Failure? ==> r.table == table
    ensures MissingTitle(body.title) ==> r.reply == Failure(400, ValidationError(TitleRequired))
    ensures !MissingTitle(body.title) && RejectedStatus(body.status) ==> r.reply == Failure(400, ValidationError(StatusMessage))
    ensures !MissingTitle(body.title) && !RejectedStatus(body.status) && db.DbError? ==>
      r.reply == Failure(500, DatabaseError("Failed to create task", db.message))
    ensures r.reply.Success? <==> !MissingTitle(body.title) && !RejectedStatus(body.status) && db.DbOk?
    ensures r.reply.Success? ==>
      var row := r.reply.value;
      && r.reply.status == 201
      && r.table == table + [row]
      && row.id == freshId && row.userId == caller
      && row.title == Trim(body.title.value) && row.title != ""
      && row.description == (if FieldTruthy(body.description) then Some(Trim(body.description.value)) else None)
      && row.status.Some? && IsValidStatus(row.status.value)
      && (FieldTruthy(body.status) ==> row.status == Some(body.status.value))
      && (!FieldTruthy(body.status) ==> row.status == Some("pending"))
      && row.dueDate == FieldOrNull(body.dueDate)
      && row.createdAt == now && row.updatedAt == now
  {
    if MissingTitle(body.title) then
      Step(table, Failure(400, ValidationError(TitleRequired)))
    else if RejectedStatus(body.status) then
      Step(table, Failure(400, ValidationError(StatusMessage)))
    else
      var row := Row(
        freshId,
        caller,
        Trim(body.title.value),
        if FieldTruthy(body.description) then Some(Trim(body.description.value)) else None,
        Some(if FieldTruthy(body.status) then body.status.value else "pending"),
        FieldOrNull(body.dueDate),
        now,
        now);
      match db
      case DbError(m) => Step(table, Failure(500, DatabaseError("Failed to create task", m)))
      case DbOk => Step(table + [row], Success(201, "Task created successfully", row))
  }

  /** A new identifier keeps identifiers unique. */
  lemma CreateKeepsIdsUnique(table: Table, caller: string, body: TaskBody, freshId: string, now: int, db: DbOutcome)
    requires UniqueIds(table)
    requires forall k :: 0 <= k < |table| ==> table[k].id != freshId
    ensures UniqueIds(CreateTask(table, caller, body, freshId, now, db).table)
  {
  }

  // ------------------------------------------------------------------ list

  predicate NewestFirst(s: seq<Row>) {
    forall i, j :: 0 <= i < j < |s| ==> s[i].createdAt >= s[j].createdAt
  }

  function InsertNewestFirst(row: Row, s: seq<Row>): (r: seq<Row>)
    requires NewestFirst(s)
    ensures NewestFirst(r)
    ensures multiset(r) == multiset(s) + multiset{row}
    ensures forall k :: 0 <= k < |r| ==> r[k] == row || r[k] in s
    ensures r[0] == row || (|s| > 0 && r[0] == s[0])
  {
    if |s| == 0 || row.createdAt >= s[0].createdAt then
      PrependNewest(row, s);
      [row] + s
    else
      var rest := InsertNewestFirst(row, s[1..]);
      assert s == [s[0]] + s[1..];
      PrependNewest(s[0], rest);
      [s[0]] + rest
  }

  /** A row no older than the head of a newest-first sequence can go first. */
  lemma PrependNewest(x: Row, s: seq<Row>)
    requires NewestFirst(s)
    requires |s| > 0 ==> x.createdAt >= s[0].createdAt
    ensures NewestFirst([x] + s)
  {
  }

  /** `.order('created_at', { ascending: false })`: a permutation of the
      rows, newest first. The order of rows created at the same instant is
      the database's choice; this model keeps their table order. */
  function SortNewestFirst(s: seq<Row>): (r: seq<Row>)
    ensures NewestFirst(r)
    ensures multiset(r) == multiset(s)
  {
    if |s| == 0 then []
    else
      assert s == [s[0]] + s[1..];
      InsertNewestFirst(s[0], SortNewestFirst(s[1..]))
  }

  /** The rows a list request selects: the caller's, with the filter status
      when a filter is given. */
  predicate Selected(row: Row, caller: string, status: Option<string>) {
    row.userId == caller && (Truthy(status) ==> row.status == Some(status.value))
  }

  /** `getTasks`: an invalid filter is rejected; otherwise the reply holds
      exactly the caller's rows with the filter status, newest first, and a
      count equal to their number. An empty filter is no filter. */
  function GetTasks(table: Table, caller: string, status: Option<string>, db: DbOutcome): (r: Reply<Listing>)
    ensures Truthy(status) && !IsValidStatus(status.value) ==> r == Failure(400, ValidationError(StatusMessage))
    ensures !(Truthy(status) && !IsValidStatus(status.value)) && db.DbError? ==>
      r == Failure(500, DatabaseError("Failed to fetch tasks", db.message))
    ensures r.Success? <==> db.DbOk? && !(Truthy(status) && !IsValidStatus(status.value))
    ensures r.Success? ==>
      && r.status == 200
      && r.value.count == |r.value.tasks|
      && NewestFirst(r.value.tasks)
      && multiset(r.value.tasks) == multiset(Filter(table, row => Selected(row, caller, status)))
      && (forall k :: 0 <= k < |r.value.tasks| ==> r.value.tasks[k] in table && Selected(r.value.tasks[k], caller, status))
      && (forall k :: 0 <= k < |table| && Selected(table[k], caller, status) ==> table[k] in r.value.tasks)
  {
    if Truthy(status) && !IsValidStatus(status.value) then
      Failure(400, ValidationError(StatusMessage))
    else
      match db
      case DbError(m) => Failure(500, DatabaseError("Failed to fetch tasks", m))
      case DbOk =>
        var selected := Filter(table, row => Selected(row, caller, status));
        var rows := SortNewestFirst(selected);
        SameElements(rows, selected);
        Success(200, "Tasks fetched successfully", Listing(|rows|, rows))
  }

  lemma SameElements(a: seq<Row>, b: seq<Row>)
    requires multiset(a) == multiset(b)
    ensures forall k :: 0 <= k < |a| ==> a[k] in b
    ensures forall k :: 0 <= k < |b| ==> b[k] in a
  {
    forall k | 0 <= k < |a| ensures a[k] in b {
      assert a[k] in multiset(a);
    }
    forall k | 0 <= k < |b| ensures b[k] in a {
      assert b[k] in multiset(b);
    }
  }

  // ---------------------------------------------------------------- update

  predicate EmptyPatch(p: Patch) {
    p.title.None? && p.description.Undefined? && p.status.Undefined? && p.dueDate.Undefined?
  }

  /** Builds `updateData` from the body. A `null` title makes `title.trim()`
      throw, which the handler turns into a 500; that case yields `None`. */
  function UpdateData(body: TaskBody): (p: Option<Patch>)
    ensures p.None? <==> body.title.Null?
    ensures p.Some? ==>
      && (p.value.title.Some? <==> body.title.Defined?)
      && (body.title.Defined? ==> p.value.title.value == Trim(body.title.value))
      && (p.value.description.Undefined? <==> body.description.Undefined?)
      && (p.value.description.Defined? <==> FieldTruthy(body.description))
      && (FieldTruthy(body.description) ==> p.value.description.value == Trim(body.description.value))
      && p.value.status == body.status
      && (p.value.dueDate.Undefined? <==> body.dueDate.Undefined?)
      && (FieldTruthy(body.dueDate) <==> p.value.dueDate.Defined?)
      && (p.value.dueDate.Defined? ==> p.value.dueDate == body.dueDate)
  {
    if body.title.Null? then None
    else Some(Patch(
      if body.title.Defined? then Some(Trim(body.title.value)) else None,
      if body.description.Undefined? then Undefined
      else if FieldTruthy(body.description) then Defined(Trim(body.description.value))
      else Null,
      body.status,
      if body.dueDate.Undefined? then Undefined
      else if FieldTruthy(body.dueDate) then body.dueDate
      else Null))
  }

  /** Writes a nullable member into a nullable column; absent leaves it. */
  function Assign(current: Option<string>, f: Field<string>): Option<string> {
    match f
    case Undefined => current
    case Null => None
    case Defined(v) => Some(v)
  }

  /** The row after `update(updateData)`: only the members present change. */
  function ApplyPatch(row: Row, p: Patch): (r: Row)
    ensures r.id == row.id && r.userId == row.userId
    ensures r.createdAt == row.createdAt && r.updatedAt == row.updatedAt
    ensures p.title.None? ==> r.title == row.title
    ensures p.description.Undefined? ==> r.description == row.description
    ensures p.status.Undefined? ==> r.status == row.status
    ensures p.dueDate.Undefined? ==> r.dueDate == row.dueDate
    ensures p.title.Some? ==> r.title == p.title.value
    ensures p.description.Defined? ==> r.description == Some(p.description.value)
    ensures p.description.Null? ==> r.description == None
    ensures p.status.Defined? ==> r.status == Some(p.status.value)
    ensures p.status.Null? ==> r.status == None
    ensures p.dueDate.Defined? ==> r.dueDate == Some(p.dueDate.value)
    ensures p.dueDate.Null? ==> r.dueDate == None
    ensures EmptyPatch(p) ==> r == row
  {
    row.(title := if p.title.Some? then p.title.value else row.title,
         description := Assign(row.description, p.description),
         status := Assign(row.status, p.status),
         dueDate := Assign(row.dueDate, p.dueDate))
  }

  const UpdateNotFound: ErrorBody :=
    ErrorBody("Not Found", "Task not found or you do not have permission to update it", None)

  /** The body passes every check `updateTask` makes before the database
      call: no rejected status, no null title (which would throw), at least
      one member present, and a present title that does not trim to empty. */
  predicate UpdateChecksPass(body: TaskBody) {
    && !RejectedStatus(body.status)
    && !body.title.Null?
    && body != TaskBody(Undefined, Undefined, Undefined, Undefined)
    && !(body.title.Defined? && Trim(body.title.value) == "")
  }

  /** `updateTask`. The checks run in this order: status enum, building the
      update object (a null title throws), "nothing to update", "title
      cannot be empty", the database call, the ownership match. */
  function UpdateTask(table: Table, caller: string, id: string, body: TaskBody, db: DbOutcome): (r: Step<Row>)
    ensures r.reply.Failure? ==> r.table == table
    ensures RejectedStatus(body.status) ==> r.reply == Failure(400, ValidationError(StatusMessage))
    ensures !RejectedStatus(body.status) && body.title.Null? ==> r.reply == Failure(500, UnexpectedError)
    ensures body == TaskBody(Undefined, Undefined, Undefined, Undefined) ==> r.reply == Failure(400, ValidationError(NothingToUpdate))
    ensures !RejectedStatus(body.status) && body.title.Defined? && Trim(body.title.value) == "" ==> r.reply == Failure(400, ValidationError(TitleEmpty))
    ensures UpdateChecksPass(body) && db.DbError? ==> r.reply == Failure(500, DatabaseError("Failed to update task", db.message))
    ensures UpdateChecksPass(body) && db.DbOk? && (forall k :: 0 <= k < |table| ==> !Matches(table[k], id, caller))
      ==> r.reply == Failure(404, UpdateNotFound)
    ensures r.reply.Success? <==>
      UpdateChecksPass(body) && db.DbOk? && exists k :: 0 <= k < |table| && Matches(table[k], id, caller)
    ensures r.reply.Success? ==>
      && r.reply.status == 200
      && |r.table| == |table|
      && Matches(r.reply.value, id, caller)
      && r.reply.value in r.table
      && (forall k :: 0 <= k < |table| && !Matches(table[k], id, caller) ==> r.table[k] == table[k])
      && (forall k :: 0 <= k < |table| && Matches(table[k], id, caller) ==> r.table[k] == ApplyPatch(table[k], UpdateData(body).value))
      && (forall k :: 0 <= k < |table| ==> r.table[k].id == table[k].id && r.table[k].userId == table[k].userId)
      && (forall k :: 0 <= k < |table| && Matches(table[k], id, caller) ==>
            && (body.title.Undefined? ==> r.table[k].title == table[k].title)
            && (body.title.Defined? ==> r.table[k].title == Trim(body.title.value))
            && (body.description.Undefined? ==> r.table[k].description == table[k].description)
            && (FieldTruthy(body.description) ==> r.table[k].description == Some(Trim(body.description.value)))
            && (body.description.Defined? && body.description.value == "" ==> r.table[k].description == None)
            && (body.description.Null? ==> r.table[k].description == None)
            && (body.status.Undefined? ==> r.table[k].status == table[k].status)
            && (body.status.Defined? ==> r.table[k].status == Some(body.status.value))
            && (body.status.Null? ==> r.table[k].status == None)
            && (body.dueDate.Undefined? ==> r.table[k].dueDate == table[k].dueDate)
            && (!body.dueDate.Undefined? ==> r.table[k].dueDate == FieldOrNull(body.dueDate))
            && r.table[k].createdAt == table[k].createdAt)
  {
    if RejectedStatus(body.status) then
      Step(table, Failure(400, ValidationError(StatusMessage)))
    else
      match UpdateData(body)
      case None => Step(table, Failure(500, UnexpectedError))
      case Some(p) =>
        if EmptyPatch(p) then Step(table, Failure(400, ValidationError(NothingToUpdate)))
        else if p.title == Some("") then Step(table, Failure(400, ValidationError(TitleEmpty)))
        else match db
          case DbError(m) => Step(table, Failure(500, DatabaseError("Failed to update task", m)))
          case DbOk =>
            match FirstIndex(table, row => Matches(row, id, caller))
            case None => Step(table, Failure(404, UpdateNotFound))
            case Some(k) =>
              PatchedFields(body);
              var updated := seq(|table|, j requires 0 <= j < |table| =>
                if Matches(table[j], id, caller) then ApplyPatch(table[j], p) else table[j]);
              assert updated[k] == ApplyPatch(table[k], p);
              Step(updated, Success(200, "Task updated successfully", updated[k]))
  }

  /** What each member of a row becomes under the update object built
      from `body`, stated in terms of the body. */
  lemma PatchedFields(body: TaskBody)
    requires !body.title.Null?
    ensures forall row :: var n := ApplyPatch(row, UpdateData(body).value);
      && (body.title.Undefined? ==> n.title == row.title)
      && (body.title.Defined? ==> n.title == Trim(body.title.value))
      && (body.description.Undefined? ==> n.description == row.description)
      && (FieldTruthy(body.description) ==> n.description == Some(Trim(body.description.value)))
      && (body.description.Defined? && body.description.value == "" ==> n.description == None)
      && (body.description.Null? ==> n.description == None)
      && (body.status.Undefined? ==> n.status == row.status)
      && (body.status.Defined? ==> n.status == Some(body.status.value))
      && (body.status.Null? ==> n.status == None)
      && (body.dueDate.Undefined? ==> n.dueDate == row.dueDate)
      && (!body.dueDate.Undefined? ==> n.dueDate == FieldOrNull(body.dueDate))
      && n.createdAt == row.createdAt
  {
  }

  /** An empty-string status is falsy, so it passes the enum check, and it
      is still present (not undefined), so it is written to the row. */
  lemma UpdateAcceptsEmptyStatus(table: Table, caller: string, id: string, k: nat)
    requires k < |table| && Matches(table[k], id, caller)
    ensures var r := UpdateTask(table, caller, id, TaskBody(Undefined, Undefined, Defined(""), Undefined), DbOk);
      r.reply.Success? && r.table[k].status == Some("")
  {
    var body := TaskBody(Undefined, Undefined, Defined(""), Undefined);
    var p := UpdateData(body).value;
    assert !EmptyPatch(p);
  }

  /** Updating keeps identifiers unique. */
  lemma UpdateKeepsIdsUnique(table: Table, caller: string, id: string, body: TaskBody, db: DbOutcome)
    requires UniqueIds(table)
    ensures UniqueIds(UpdateTask(table, caller, id, body, db).table)
  {
  }

  // ---------------------------------------------------------------- delete

  const DeleteNotFound: ErrorBody :=
    ErrorBody("Not Found", "Task not found or you do not have permission to delete it", None)

  /** `deleteTask`: removes the caller's row with identifier `id` and
      replies with its prior state; any other row stays, in order. */
  function DeleteTask(table: Table, caller: string, id: string, db: DbOutcome): (r: Step<Row>)
    ensures r.reply.Failure? ==> r.table == table
    ensures db.DbError? ==> r.reply == Failure(500, DatabaseError("Failed to delete task", db.message))
    ensures db.DbOk? && (forall k :: 0 <= k < |table| ==> !Matches(table[k], id, caller)) ==> r.reply == Failure(404, DeleteNotFound)
    ensures r.reply.Success? <==> db.DbOk? && exists k :: 0 <= k < |table| && Matches(table[k], id, caller)
    ensures r.reply.Success? ==>
      && r.reply.status == 200
      && r.reply.value in table && Matches(r.reply.value, id, caller)
      && |r.table| < |table|
      && (forall k :: 0 <= k < |r.table| ==> r.table[k] in table && !Matches(r.table[k], id, caller))
      && (forall k :: 0 <= k < |table| && !Matches(table[k], id, caller) ==> table[k] in r.table)
      && r.table == Filter(table, row => !Matches(row, id, caller))
  {
    match db
    case DbError(m) => Step(table, Failure(500, DatabaseError("Failed to delete task", m)))
    case DbOk =>
      match FirstIndex(table, row => Matches(row, id, caller))
      case None => Step(table, Failure(404, DeleteNotFound))
      case Some(k) =>
        var rest := Filter(table, row => !Matches(row, id, caller));
        assert table[k] !in rest;
        assert |rest| < |table| by {
          if |rest| == |table| {
            FilterFullLength(table, row => !Matches(row, id, caller));
            assert false;
          }
        }
        Step(rest, Success(200, "Task deleted successfully", table[k]))
  }

  lemma {:induction false} FilterFullLength<T>(s: seq<T>, keep: T -> bool)
    requires |Filter(s, keep)| == |s|
    ensures forall k :: 0 <= k < |s| ==> keep(s[k])
  {
    if |s| > 0 {
      var rest := Filter(s[1..], keep);
      assert keep(s[0]);
      FilterFullLength(s[1..], keep);
      forall k | 1 <= k < |s| ensures keep(s[k]) {
        assert s[k] == s[1..][k - 1];
      }
    }
  }

  /** With unique identifiers a successful delete removes exactly one row. */
  lemma DeleteRemovesOneRow(table: Table, caller: string, id: string, db: DbOutcome)
    requires UniqueIds(table)
    requires DeleteTask(table, caller, id, db).reply.Success?
    ensures |DeleteTask(table, caller, id, db).table| == |table| - 1
  {
    var r := DeleteTask(table, caller, id, db);
    var k :| 0 <= k < |table| && Matches(table[k], id, caller);
    var keep := (row: Row) => !Matches(row, id, caller);
    assert r.table == Filter(table, keep);
    FilterDropsOne(table, keep, k);
  }

  lemma {:induction false} FilterDropsOne(table: Table, keep: Row -> bool, k: nat)
    requires k < |table| && !keep(table[k])
    requires forall j :: 0 <= j < |table| && j != k ==> keep(table[j])
    ensures |Filter(table, keep)| == |table| - 1
  {
    if k == 0 {
      assert Filter(table[1..], keep) == table[1..] by {
        forall j | 0 <= j < |table[1..]| ensures keep(table[1..][j]) {
          assert table[1..][j] == table[j + 1];
        }
      }
    } else {
      forall j | 0 <= j < |table[1..]| && j != k - 1 ensures keep(table[1..][j]) {
        assert table[1..][j] == table[j + 1];
      }
      FilterDropsOne(table[1..], keep, k - 1);
    }
  }

  /** A user can never update or delete another user's task: with no row of
      the caller carrying that identifier, neither request succeeds and the
      table is untouched (the reply is a validation error, a database error
      or 404 — never "forbidden", never a partial success). */
  lemma OtherUsersTasksUntouchable(table: Table, caller: string, id: string, body: TaskBody, db: DbOutcome)
    requires forall k :: 0 <= k < |table| && table[k].id == id ==> table[k].userId != caller
    ensures var u := UpdateTask(table, caller, id, body, db);
      u.reply.Failure? && u.table == table && u.reply.status in {400, 404, 500}
    ensures var d := DeleteTask(table, caller, id, db);
      d.reply.Failure? && d.table == table && d.reply.status in {404, 500}
  {
  }
}
